=== FILE: README.md ===
# Component discovery: a verified model

This project models the component-discovery engine of the server's
`ComponentService`. The host application declares extension points: classes
annotated `@ExtensibleComponent`. Plugins ship as crates, one directory each.
A crate holds jars whose classes carry `@NamedComponent(name = "...")`. The engine
works in five parts:

1. **Hierarchy index.** An annotated-hierarchy visitor reads every class header.
   It records each class under its superclass and under every interface it
   declares. It also reports the classes that carry one target annotation.
2. **Extensibility closure.** A FIFO worklist and a `processed` set extend a map
   from class name to its originating extension point. Afterwards the map
   covers every transitive descendant.
3. **Named-component resolution.** The collected name -> class pairs of a crate
   are filed under the extension point each class descends from. A class that
   descends from none is an error.
4. **Discovery cache.** `component-info.txt` holds one line
   `<extension point> <name> <impl>` per entry. It is read back with Java's
   `split(" ")`.
5. **Registry.** The constructor merges every crate's table into one global
   table with `computeIfAbsent` + `putAll`. `getNamedComponent` then does a
   two-level lookup that fails in two distinct ways.

Class names are plain strings, and a class file is reduced to the facts the
visitor sees. Each module follows the shape of its source code:

- The visitor is a `class` whose `Visit` updates its `classToSubclasses` field.
- The worklist, the scan, the resolution loop, the cache reader and writer, and
  the merge loop are methods with loops.
- Each method is proved against a specification function or predicate: the
  index `IndexClasses`, the reported hits `AnnotationHits`, the name map
  `CollectNamed`, the decoder `DecodeLines`, and the merges `PutAll` and
  `MergeAll`.
- Lemmas state the properties of those functions.

Java's `HashMap` and `HashSet` iteration order is unspecified. Every loop over
such a collection therefore picks its next element with `:|`, and the
contracts hold whatever order is chosen.

Modules and files:

- `types.dfy` (`ComponentTypes`): shared vocabulary, the annotation descriptors
  and the table type.
- `hierarchy.dfy` (`Hierarchy`): the visitor and the index specification.
- `extensible.dfy` (`Extensible`): the closure worklist.
- `scanner.dfy` (`Scanner`): scanning, the callbacks, `findExtensible`,
  resolution and `findComponentInfo`.
- `cache.dfy` (`DiscoveryCache`): the line codec and its round trip.
- `registry.dfy` (`Registry`): the per-crate step, the merge, the constructor
  and the lookup.

## Model

All source paths are under `server/src/main/java/org/elasticsearch/server/`.

| member | source | states |
|---|---|---|
| Hierarchy.RecordClassEdges | server/src/main/java/org/elasticsearch/server/ComponentService.java:339-346 | after one class header, the class is a child of its superclass and of every declared interface; every earlier edge is kept; no parent gains any other child |
| Hierarchy.AnnotatedHierarchyVisitor.constructor | server/src/main/java/org/elasticsearch/server/ComponentService.java:331-337 | a new visitor has the given target descriptor and an empty hierarchy |
| Hierarchy.AnnotatedHierarchyVisitor.Visit | server/src/main/java/org/elasticsearch/server/ComponentService.java:339-346 | sets the current class and records it under its superclass and each interface, one `computeIfAbsent(..).add` at a time |
| Hierarchy.AnnotatedHierarchyVisitor.VisitAnnotation | server/src/main/java/org/elasticsearch/server/ComponentService.java:348-354 | reports the current class exactly when the descriptor is the target one, otherwise nothing |
| Hierarchy.AnnotatedHierarchyVisitor.GetClassHierarchy | server/src/main/java/org/elasticsearch/server/ComponentService.java:356-359 | returns the visitor's own index, not a copy; `ScanClasses` shows it to be `IndexClasses` of the visited classes |
| Hierarchy.IndexClassesEdges | server/src/main/java/org/elasticsearch/server/ComponentService.java:339-346 | after visiting a sequence of classes, an edge parent -> child is in the index iff some visited class named child declares parent as superclass or interface |
| Hierarchy.IndexClassesGrows | server/src/main/java/org/elasticsearch/server/ComponentService.java:342-345 | visiting more classes never removes an edge |
| Extensible.EntriesOf | server/src/main/java/org/elasticsearch/server/ComponentService.java:284 | the initial worklist holds the map's own entries, exactly one per key; each is live, so its value is read from the map when it is taken off |
| Extensible.PutSubclasses | server/src/main/java/org/elasticsearch/server/ComponentService.java:297-300 | every subclass is put with the entry's root (overwriting), other keys keep their value, and exactly one fixed `Map.entry` copy per subclass, holding that root, is appended to the worklist |
| Extensible.ExpandStep | server/src/main/java/org/elasticsearch/server/ComponentService.java:287-301 | expanding an unprocessed class with the root its entry stands for (the map's current value for a starting entry, the copied root otherwise) keeps the loop invariant: start keys kept, expanded classes' children present, present classes expanded or queued, every class inherits its root |
| Extensible.ParentRootedStep | server/src/main/java/org/elasticsearch/server/ComponentService.java:297-300 | after expanding a class with a root it inherits, every present class with an expanded parent holds a root inherited by one of its expanded parents: the last `put` of a class is made while one of its parents is expanded |
| Extensible.SkipStep | server/src/main/java/org/elasticsearch/server/ComponentService.java:289-295 | dropping an entry that is processed or has no subclasses keeps the loop invariant |
| Extensible.AddExtensibleDescendants | server/src/main/java/org/elasticsearch/server/ComponentService.java:283-303 | no key is lost; the keys are exactly the classes reachable from a starting key; every class's value is a starting root it inherits along a path, also when a starting entry's value was replaced before it was taken off; values are among the starting values; a class with a parent in the map holds a root that one of its parents inherits, so a starting class below another starting class is overwritten with a root from above it; each class is expanded at most once, exactly the present classes that have subclasses; terminates on cyclic hierarchies |
| Extensible.ClosureKeys | server/src/main/java/org/elasticsearch/server/ComponentService.java:286-302 | a closed superset of the start keys whose classes all inherit a root is exactly the set of descendants |
| Extensible.InheritedRootsAreRoots | server/src/main/java/org/elasticsearch/server/ComponentService.java:298 | a class that inherits its value from the starting map carries one of the starting values |
| Scanner.AnnotationHitsMembers | server/src/main/java/org/elasticsearch/server/ComponentService.java:348-354 | a hit is reported iff some visited class carries an annotation of the target type with those arguments |
| Scanner.ReportAnnotations | server/src/main/java/org/elasticsearch/server/ComponentService.java:348-354 | the current class's annotations, shown in order, report exactly its target annotations |
| Scanner.ScanClasses | server/src/main/java/org/elasticsearch/server/ComponentService.java:180-184 | visiting every class through one visitor yields the index of all their edges and their target annotations in order |
| Scanner.CollectExtensible | server/src/main/java/org/elasticsearch/server/ComponentService.java:241-245 | each reported class becomes an extension point mapped to itself |
| Scanner.HitClassesAreAnnotated | server/src/main/java/org/elasticsearch/server/ComponentService.java:242-245 | the reported classes are exactly the classes annotated with the target type |
| Scanner.FindExtensible | server/src/main/java/org/elasticsearch/server/ComponentService.java:240-276 | the host's extensible map has exactly the descendants of `@ExtensibleComponent` classes as keys, each mapped to an annotated class it descends from; a class with a parent in the map holds a root one of its parents inherits, so an annotated class below another annotated class takes a root from above |
| Scanner.PutNames | server/src/main/java/org/elasticsearch/server/ComponentService.java:173-177 | each argument of one named annotation is put with the reporting class, other names keep theirs |
| Scanner.CollectNamedComponents | server/src/main/java/org/elasticsearch/server/ComponentService.java:169-184 | the name map after the scan is the fold of all reports in order |
| Scanner.CollectNamedKeys | server/src/main/java/org/elasticsearch/server/ComponentService.java:169-177 | a name is collected iff some report gives it |
| Scanner.CollectNamedLastWins | server/src/main/java/org/elasticsearch/server/ComponentService.java:176 | two classes with the same name in one crate: the one reported last is kept |
| Scanner.FileOne | server/src/main/java/org/elasticsearch/server/ComponentService.java:197-199 | filing a new name keeps the table filed, and the name was not there before (`existing == null` holds) |
| Scanner.ResolveComponents | server/src/main/java/org/elasticsearch/server/ComponentService.java:189-206 | fails iff some named class has no extensible root, naming such a pair; otherwise every name is filed under its class's root with its class and no extension point is empty |
| Scanner.FiledUnderInheritedRoots | server/src/main/java/org/elasticsearch/server/ComponentService.java:186-198 | every filed component inherits the extension point it is filed under, and no name is filed under two extension points |
| Scanner.FindComponentInfo | server/src/main/java/org/elasticsearch/server/ComponentService.java:168-209 | a crate's discovery fails iff one of its named classes does not descend from a host extension point; the error names such a component; otherwise every named component is filed with its class, under exactly one extension point, one it inherits, and only they are; the caller's map is a value and is not changed |
| DiscoveryCache.CacheFile | server/src/main/java/org/elasticsearch/server/ComponentService.java:122-124 | the cache file is `component-info.txt` inside the crate directory; crates are identified by name, so this path is not tied to the `CacheWrite` values |
| DiscoveryCache.Fields | server/src/main/java/org/elasticsearch/server/ComponentService.java:148 | the pieces between single spaces: at least one, none holding a space |
| DiscoveryCache.JavaSplit | server/src/main/java/org/elasticsearch/server/ComponentService.java:148 | `split(" ")`: a string without a space is its only piece; otherwise no piece holds a space and trailing empty pieces are gone |
| DiscoveryCache.ParseLine | server/src/main/java/org/elasticsearch/server/ComponentService.java:148-154 | a line parses iff it splits into exactly three parts, else it is reported malformed; the parts hold no space and the class name is not empty |
| DiscoveryCache.FieldsJoin | server/src/main/java/org/elasticsearch/server/ComponentService.java:148 | a space separates the fields before it from those after it |
| DiscoveryCache.ParseFormatLine | server/src/main/java/org/elasticsearch/server/ComponentService.java:132-154 | a written line splits back into its three parts when no part holds a space and the class name is not empty (line breaks in a field matter only to the file's line splitting, which `RoundTrip` excludes) |
| DiscoveryCache.NameWithSpaceIsMalformed | server/src/main/java/org/elasticsearch/server/ComponentService.java:132-151 | a component name holding a space makes its line split into more than three parts |
| DiscoveryCache.EmptyImplIsMalformed | server/src/main/java/org/elasticsearch/server/ComponentService.java:132-151 | an empty class name is dropped by `split`, leaving fewer than three parts |
| DiscoveryCache.DecodeFailurePersists | server/src/main/java/org/elasticsearch/server/ComponentService.java:147-156 | once a line fails, reading the file fails with that line |
| DiscoveryCache.DecodeFormatLines | server/src/main/java/org/elasticsearch/server/ComponentService.java:147-156 | written lines read back as the table their entries build |
| DiscoveryCache.TableOfLookup | server/src/main/java/org/elasticsearch/server/ComponentService.java:155 | the table built from entries files exactly their (extension point, name) pairs, each with the class of one of them |
| DiscoveryCache.TableOfEntries | server/src/main/java/org/elasticsearch/server/ComponentService.java:146-157 | any sequence holding exactly a table's entries rebuilds that table |
| DiscoveryCache.RoundTrip | server/src/main/java/org/elasticsearch/server/ComponentService.java:126-158 | the lines written for a table read back as that table, given no spaces or line breaks in identifiers and names, no empty class names and no empty extension point |
| DiscoveryCache.WriteImplementations | server/src/main/java/org/elasticsearch/server/ComponentService.java:131-133 | one line per name of one extension point, no name twice |
| DiscoveryCache.WriteComponentInfoCache | server/src/main/java/org/elasticsearch/server/ComponentService.java:126-136 | exactly one line per (extension point, name) entry of the table |
| DiscoveryCache.MaybeLoadComponentInfoCache | server/src/main/java/org/elasticsearch/server/ComponentService.java:138-158 | no file gives "no table" rather than an error; otherwise the lines are read in order into the table, and a line not of three parts is an error |
| Registry.PutAllLookup | server/src/main/java/org/elasticsearch/server/ComponentService.java:73-77 | merging a crate keeps every extension point and name of both tables; a name the crate files takes the crate's class; other names keep theirs |
| Registry.PutAllStep | server/src/main/java/org/elasticsearch/server/ComponentService.java:74-76 | merging one more extension point is one `computeIfAbsent` + `putAll` on the global table |
| Registry.MergeCrate | server/src/main/java/org/elasticsearch/server/ComponentService.java:73-77 | the merge loop computes the merged table whatever order it visits extension points in |
| Registry.MergeAllKeys | server/src/main/java/org/elasticsearch/server/ComponentService.java:58-77 | an extension point is registered iff some crate files it |
| Registry.MergeAllNames | server/src/main/java/org/elasticsearch/server/ComponentService.java:58-77 | a name is registered under an extension point iff some crate files it there |
| Registry.MergeAllLastWins | server/src/main/java/org/elasticsearch/server/ComponentService.java:73-77 | the same (extension point, name) in two crates: the later crate's class is kept |
| Registry.ComponentService.GetNamedComponent | server/src/main/java/org/elasticsearch/server/ComponentService.java:90-100 | succeeds iff the extension point files the name, returning its class; otherwise "No implementations found" iff the extension point is unknown, else "No implementation [name] found" |
| Registry.LookupAfterMerge | server/src/main/java/org/elasticsearch/server/ComponentService.java:93-100 | a lookup fails with "No implementations found" iff no crate files the extension point; it fails with "No implementation [name] found" iff some crate files the extension point but none files the name; otherwise it returns the last crate's class |
| Registry.CacheHitSameTable | server/src/main/java/org/elasticsearch/server/ComponentService.java:64-69 | reloading a crate from the cache written for it gives the table its scan gave (identifiers without spaces or line breaks, class names not empty) |
| Registry.ScanOutcome | server/src/main/java/org/elasticsearch/server/ComponentService.java:66-69 | a crate without a cache fails to load iff one of its named components is unresolved, naming it; otherwise its table is the crate table of its scan |
| Registry.LoadCrate | server/src/main/java/org/elasticsearch/server/ComponentService.java:64-72 | fails iff the cache has a malformed line or, without a cache, some named component descends from no host extension point, with an error naming the crate and the cause; otherwise the table comes from the cache when there is one, else from a scan, and a cache for exactly that table is written |
| Registry.CrateStep | server/src/main/java/org/elasticsearch/server/ComponentService.java:58-77 | one more crate's table and cache write keep the constructor's loop invariant |
| Registry.NewComponentService | server/src/main/java/org/elasticsearch/server/ComponentService.java:43-80 | the host's extension points are the descendants of annotated classes; the host map sends each class to an annotated class it inherits from, through one of its parents when it has a parent in the map; the build fails iff some crate fails (an unreadable cache, or without a cache an unresolved named component), and then with the error of the first such crate, every crate before it having loaded; whether it fails or not, a cache has been written for exactly the crates it got past that had none, once each and in crate order, each holding that crate's table (the files a failed build leaves behind); on success every crate's table is its cache or its scan and the registry is their merge in crate order |

## Left out

- Bytecode parsing is not modelled. A class file is given as a `ClassRecord`
  (name, superclass, interfaces, annotations with their string arguments).
  `ClassReader` and `Type.getDescriptor` are not modelled; the descriptors are
  constants.
- File system and jar traversal are not modelled. The class path is a sequence
  of class records, and the crates directory is a sequence of `Crate` values in
  listing order. Each crate holds its classes (all jars concatenated) and the
  lines of its cache file when one exists. Class-path elements that do not
  exist, and the splitting of the class path, are not modelled.
- Writing a cache file is returned as a `CacheWrite` value, keyed by the crate's
  name; the write itself is I/O. `CacheFile` gives the path the source writes
  to, but the model does not tie it to the `CacheWrite` values.
- Class loading is not modelled; class resolution is the identity on names.
  This covers `URLClassLoader`, `loadClass` with its `/` to `.` replacement,
  and `ClassNotFoundException` for unknown names in a cache. Because of it, the
  duplicate-key failure of the final `toMap` in `findComponentInfo` cannot
  arise in the model.
  In the source, the scan sees internal names (`a/b/C`) and `loadClass` turns
  them into classes, while a cache line holds the dotted `Class.getName()` that
  the cache reader loads. Both spellings reach the same class. The model uses
  one spelling for a class everywhere, both in the scan and in the cache. A
  cache file the source writes and a scan therefore key an extension point the
  same way only through this identity: the model does not represent the two
  spellings or the conversion between them.
- Instantiation is not modelled: `getConstructor().newInstance()`, `type.cast`
  and the `isAssignableFrom` assertion. `GetNamedComponent` returns the
  registered class name.
- `getCrateNameForInstance` and all printing are not modelled.
- A visitor's first `currentName` is `""`, not `null`. `visit` always runs
  before `visitAnnotation`, so this is never observed.
- A superclass is always a name. The `null` superclass of `java.lang.Object` is
  not modelled.
- The named-component callback asserts that the annotation element is `name`
  and that its value is a `String`. These checks are not modelled: every string
  argument of a `@NamedComponent` annotation is taken as a component name.
- `assert parts.length == 3` is modelled as a `MalformedLine` error. With
  assertions disabled, the JVM would instead fail on fewer parts and ignore
  extra ones. `assert existing == null` is proved to hold, so it is kept as an
  `assert`.
- `addExtensibleDescendants` updates its map argument in place. Here it returns
  the updated map, and callers use the result. The copy in `findComponentInfo`
  therefore needs no modelling: the caller's map is an unchanged value.
- AddExtensibleDescendants: when a class is reachable from two roots (a
  diamond, or a class below two annotated classes), the contract does not say
  which of them it ends with. It says only that one of the class's parents in
  the map inherits that root. The choice depends on `HashMap` and `HashSet`
  iteration order, which is unspecified. It also depends on the starting
  entries: they are the map's own entries, so a starting entry taken off the
  worklist reads the value its class has at that moment, including a `put`
  made since it was queued. The body models that sharing (`Live` entries).
- ResolveComponents: when several named classes are unresolved, the one
  reported depends on `HashMap` order. The contract says some unresolved pair
  is reported.
- A component name filed by two crates under the same extension point is
  overwritten by the later crate: `putAll` replaces it, and the source leaves
  only a TODO to check uniqueness (ComponentService.java:75).
- A cache file with a malformed line makes the build fail; there is no fallback
  to scanning the crate.
- The cache file is given as its sequence of lines. How `Files.write` joins
  them and `Files.readAllLines` splits the file at `\n`, `\r` and `\r\n` is
  not modelled. The round trip therefore requires that no field holds a line
  break (`WellFormedEntry`).
- `Server.java`, the example plugin factories and the annotation and analysis
  interfaces are not part of this model. They hold no discovery logic.

=== FILE: cache.dfy ===
/**
 * The per-crate discovery cache: a text file `component-info.txt` in the
 * crate's directory holding one line `<extension point> <name> <impl>` per
 * named component, read back by splitting each line on single spaces the
 * way `String.split(" ")` does on the JVM.
 */
module DiscoveryCache {
  import opened ComponentTypes

  /** File name of the cache inside a crate directory. */
  const CacheFileName: string := "component-info.txt"

  /** The cache file of a crate directory: the directory resolved against the cache file name. */
  function CacheFile(crateDir: string): (path: string)
    ensures |path| >= |CacheFileName| && path[|path| - |CacheFileName|..] == CacheFileName
    ensures crateDir != [] ==> |path| > |crateDir| && path[..|crateDir|] == crateDir && path[|crateDir|] == '/'
  {
    if crateDir == [] then CacheFileName else crateDir + "/" + CacheFileName
  }

  /** One line of the cache: a named component filed under an extension point. */
  datatype CacheEntry = CacheEntry(extensionPoint: ClassName, name: string, impl: ClassName)

  /** A line that does not split into exactly three parts. */
  datatype CacheError = MalformedLine(line: string)

  /** The text of the line recording `e`. */
  function FormatLine(e: CacheEntry): string
  {
    e.extensionPoint + " " + e.name + " " + e.impl
  }

  /** The lines for `entries`, in order. */
  function FormatLines(entries: seq<CacheEntry>): (lines: seq<string>)
    ensures |lines| == |entries|
    ensures forall i :: 0 <= i < |entries| ==> lines[i] == FormatLine(entries[i])
  {
    if entries == [] then [] else [FormatLine(entries[0])] + FormatLines(entries[1..])
  }

  /** The pieces of `s` between single spaces, empty pieces included. */
  function Fields(s: string): (r: seq<string>)
    ensures |r| >= 1
    ensures forall i :: 0 <= i < |r| ==> ' ' !in r[i]
  {
    if s == [] then [""]
    else if s[0] == ' ' then [""] + Fields(s[1..])
    else
      var rest := Fields(s[1..]);
      [[s[0]] + rest[0]] + rest[1..]
  }

  /** `fs` without its trailing empty strings. */
  function DropTrailingEmpty(fs: seq<string>): (r: seq<string>)
    ensures |r| <= |fs| && r == fs[..|r|]
    ensures r == [] || r[|r| - 1] != ""
    ensures forall i :: |r| <= i < |fs| ==> fs[i] == ""
  {
    if fs != [] && fs[|fs| - 1] == "" then DropTrailingEmpty(fs[..|fs| - 1]) else fs
  }

  /**
   * `s.split(" ")` on the JVM: a string without a space is its own only
   * piece; otherwise the pieces between spaces, trailing empty ones removed.
   */
  function JavaSplit(s: string): (r: seq<string>)
    ensures ' ' !in s ==> r == [s]
    ensures forall i :: 0 <= i < |r| ==> ' ' !in r[i]
    ensures ' ' in s ==> r == [] || r[|r| - 1] != ""
  {
    if ' ' !in s then [s] else DropTrailingEmpty(Fields(s))
  }

  /** A string without spaces is a single field. */
  lemma {:induction false} FieldsNoSpace(s: string)
    requires ' ' !in s
    ensures Fields(s) == [s]
  {
    if s != [] {
      FieldsNoSpace(s[1..]);
      assert [s[0]] + s[1..] == s;
    }
  }

  /** A space separates the fields before it from the fields after it. */
  lemma {:induction false} FieldsJoin(a: string, b: string)
    ensures Fields(a + " " + b) == Fields(a) + Fields(b)
  {
    if a == [] {
      assert a + " " + b == [' '] + b;
      assert (a + " " + b)[1..] == b;
    } else {
      assert (a + " " + b)[1..] == a[1..] + " " + b;
      FieldsJoin(a[1..], b);
    }
  }

  /** The fields of a line written from three space-free parts are those parts. */
  lemma FieldsOfLine(e: CacheEntry)
    requires ' ' !in e.extensionPoint && ' ' !in e.impl
    ensures Fields(FormatLine(e)) == [e.extensionPoint] + Fields(e.name) + [e.impl]
  {
    assert FormatLine(e) == e.extensionPoint + " " + (e.name + " " + e.impl);
    FieldsJoin(e.extensionPoint, e.name + " " + e.impl);
    FieldsJoin(e.name, e.impl);
    FieldsNoSpace(e.extensionPoint);
    FieldsNoSpace(e.impl);
  }

  /** A field that stays within one line and one piece of `split(" ")`. */
  predicate SingleField(f: string)
  {
    ' ' !in f && '\n' !in f && '\r' !in f
  }

  /**
   * An entry whose line reads back: no field holds a space or a line break
   * (which would split the file's line in two) and the class name is not empty.
   */
  predicate WellFormedEntry(e: CacheEntry)
  {
    SingleField(e.extensionPoint) && SingleField(e.name) && SingleField(e.impl) && e.impl != ""
  }

  /** Reads one line back into an entry, or reports it malformed. */
  function ParseLine(line: string): (r: Result<CacheEntry, CacheError>)
    ensures r.Success? <==> |JavaSplit(line)| == 3
    ensures r.Failure? ==> r.error == MalformedLine(line)
    ensures r.Success? ==> ' ' !in r.value.extensionPoint && ' ' !in r.value.name && ' ' !in r.value.impl && r.value.impl != ""
  {
    var parts := JavaSplit(line);
    if |parts| != 3 then Failure(MalformedLine(line))
    else Success(CacheEntry(parts[0], parts[1], parts[2]))
  }

  /** A written line reads back as the entry it was written from, when no field holds a space and the class is named. */
  lemma ParseFormatLine(e: CacheEntry)
    requires ' ' !in e.extensionPoint && ' ' !in e.name && ' ' !in e.impl && e.impl != ""
    ensures ParseLine(FormatLine(e)) == Success(e)
  {
    FieldsOfLine(e);
    FieldsNoSpace(e.name);
    assert FormatLine(e)[|e.extensionPoint|] == ' ';
  }

  /** A component name holding a space makes its line unreadable: it splits into more than three parts. */
  lemma NameWithSpaceIsMalformed(e: CacheEntry)
    requires ' ' !in e.extensionPoint && ' ' in e.name && ' ' !in e.impl && e.impl != ""
    ensures ParseLine(FormatLine(e)).Failure?
  {
    FieldsOfLine(e);
    var i :| 0 <= i < |e.name| && e.name[i] == ' ';
    assert e.name == e.name[..i] + " " + e.name[i + 1..];
    FieldsJoin(e.name[..i], e.name[i + 1..]);
    assert |Fields(FormatLine(e))| >= 4;
    assert FormatLine(e)[|e.extensionPoint|] == ' ';
  }

  /** An empty implementation class name is dropped by the split, leaving fewer than three parts. */
  lemma EmptyImplIsMalformed(e: CacheEntry)
    requires ' ' !in e.extensionPoint && ' ' !in e.name && e.impl == ""
    ensures ParseLine(FormatLine(e)).Failure?
  {
    FieldsOfLine(e);
    FieldsNoSpace(e.name);
    var fs := Fields(FormatLine(e));
    assert fs == [e.extensionPoint, e.name, ""];
    assert FormatLine(e)[|e.extensionPoint|] == ' ';
    assert DropTrailingEmpty(fs) == DropTrailingEmpty(fs[..2]);
  }

  /** The table after recording `e`: `computeIfAbsent(ep).put(name, impl)`. */
  function Insert(t: ComponentTable, e: CacheEntry): ComponentTable
  {
    t[e.extensionPoint := Implementations(t, e.extensionPoint)[e.name := e.impl]]
  }

  /** The table built from `entries` in order. */
  function TableOf(entries: seq<CacheEntry>): ComponentTable
  {
    if entries == [] then map[] else Insert(TableOf(entries[..|entries| - 1]), entries[|entries| - 1])
  }

  /** Reads the lines of a cache file in order into a table; the first malformed line is reported. */
  function DecodeLines(lines: seq<string>): Result<ComponentTable, CacheError>
  {
    if lines == [] then Success(map[])
    else
      match DecodeLines(lines[..|lines| - 1])
      case Failure(err) => Failure(err)
      case Success(t) =>
        match ParseLine(lines[|lines| - 1])
        case Failure(err) => Failure(err)
        case Success(e) => Success(Insert(t, e))
  }

  /** Once a prefix of the lines fails to read, the whole file fails with the same error. */
  lemma {:induction false} DecodeFailurePersists(lines: seq<string>, i: nat)
    requires i <= |lines| && DecodeLines(lines[..i]).Failure?
    ensures DecodeLines(lines) == DecodeLines(lines[..i])
  {
    if i < |lines| {
      var n := |lines| - 1;
      assert lines[..n][..i] == lines[..i];
      DecodeFailurePersists(lines[..n], i);
    } else {
      assert lines[..i] == lines;
    }
  }

  /** Written lines read back as the table their entries build. */
  lemma {:induction false} DecodeFormatLines(entries: seq<CacheEntry>)
    requires forall i :: 0 <= i < |entries| ==> WellFormedEntry(entries[i])
    ensures DecodeLines(FormatLines(entries)) == Success(TableOf(entries))
  {
    if entries != [] {
      var n := |entries| - 1;
      var lines := FormatLines(entries);
      assert lines[..n] == FormatLines(entries[..n]);
      DecodeFormatLines(entries[..n]);
      ParseFormatLine(entries[n]);
    }
  }

  /** What the table built from `entries` holds: exactly their names, each with the class of an entry. */
  lemma {:induction false} TableOfLookup(entries: seq<CacheEntry>, ep: ClassName, n: string)
    ensures n in Implementations(TableOf(entries), ep) <==> exists e :: e in entries && e.extensionPoint == ep && e.name == n
    ensures n in Implementations(TableOf(entries), ep) ==> CacheEntry(ep, n, TableOf(entries)[ep][n]) in entries
  {
    if entries != [] {
      var k := |entries| - 1;
      var prefix := entries[..k];
      TableOfLookup(prefix, ep, n);
      assert entries == prefix + [entries[k]];
    }
  }

  /** Every extension point of a table built from entries has a name. */
  lemma {:induction false} TableOfNoEmpty(entries: seq<CacheEntry>)
    ensures NoEmptyExtensionPoint(TableOf(entries))
  {
    if entries != [] {
      var k := |entries| - 1;
      TableOfNoEmpty(entries[..k]);
      assert entries[k].name in TableOf(entries)[entries[k].extensionPoint];
    }
  }

  /** `t` files `e.name` under `e.extensionPoint` with class `e.impl`. */
  ghost predicate HoldsEntry(t: ComponentTable, e: CacheEntry)
  {
    e.extensionPoint in t && e.name in t[e.extensionPoint] && t[e.extensionPoint][e.name] == e.impl
  }

  /** Every entry of the table is readable: no space in any field and no empty class name. */
  ghost predicate WellFormedTable(t: ComponentTable)
  {
    forall e :: HoldsEntry(t, e) ==> WellFormedEntry(e)
  }

  /** Two entries name the same (extension point, name) pair. */
  predicate SameKey(a: CacheEntry, b: CacheEntry)
  {
    a.extensionPoint == b.extensionPoint && a.name == b.name
  }

  /** `entries` lists every entry of `t`, each (extension point, name) pair once, in some order. */
  ghost predicate ListsTable(entries: seq<CacheEntry>, t: ComponentTable)
  {
    && (forall e :: e in entries <==> HoldsEntry(t, e))
    && forall i, j :: 0 <= i < j < |entries| ==> !SameKey(entries[i], entries[j])
  }

  /** The lines of a cache file written for `t`: one line per entry of `t`, in some order. */
  ghost predicate CacheLinesOf(lines: seq<string>, t: ComponentTable)
  {
    exists entries :: lines == FormatLines(entries) && ListsTable(entries, t)
  }

  /** Any sequence holding exactly a table's entries builds that table back. */
  lemma TableOfEntries(t: ComponentTable, entries: seq<CacheEntry>)
    requires NoEmptyExtensionPoint(t)
    requires forall e :: e in entries <==> HoldsEntry(t, e)
    ensures TableOf(entries) == t
  {
    var t' := TableOf(entries);
    TableOfNoEmpty(entries);
    forall ep ensures (ep in t' <==> ep in t) && (ep in t ==> t'[ep] == t[ep]) {
      forall n ensures n in Implementations(t', ep) <==> n in Implementations(t, ep) {
        TableOfLookup(entries, ep, n);
        if n in Implementations(t, ep) {
          assert HoldsEntry(t, CacheEntry(ep, n, t[ep][n]));
        }
        if n in Implementations(t', ep) {
          assert HoldsEntry(t, CacheEntry(ep, n, t'[ep][n]));
        }
      }
      if ep in t' {
        var n :| n in t'[ep];
        assert n in Implementations(t, ep);
      }
      if ep in t {
        var n :| n in t[ep];
        assert n in Implementations(t', ep);
      }
      if ep in t {
        forall n | n in t[ep] ensures t'[ep][n] == t[ep][n] {
          TableOfLookup(entries, ep, n);
          assert HoldsEntry(t, CacheEntry(ep, n, t'[ep][n]));
        }
      }
    }
  }

  /**
   * The cache round trip: the lines written for a table read back as that
   * table, provided no identifier or name holds a space and no class name
   * is empty.
   */
  lemma RoundTrip(entries: seq<CacheEntry>, t: ComponentTable)
    requires ListsTable(entries, t)
    requires NoEmptyExtensionPoint(t) && WellFormedTable(t)
    ensures DecodeLines(FormatLines(entries)) == Success(t)
  {
    forall i | 0 <= i < |entries| ensures WellFormedEntry(entries[i]) {
      assert HoldsEntry(t, entries[i]);
    }
    DecodeFormatLines(entries);
    TableOfEntries(t, entries);
  }

  /** The entries written so far for one extension point: those of the names no longer in `rest`, each name once. */
  ghost predicate WrittenNamesExcept(extensionPoint: ClassName, namedComponents: map<string, ClassName>,
                                     written: seq<CacheEntry>, rest: set<string>)
  {
    && (forall e :: e in written <==>
          e.extensionPoint == extensionPoint && e.name in namedComponents && e.name !in rest && e.impl == namedComponents[e.name])
    && forall i, j :: 0 <= i < j < |written| ==> written[i].name != written[j].name
  }

  /** Writing the entry of one more name. */
  lemma WriteOneName(extensionPoint: ClassName, namedComponents: map<string, ClassName>,
                     written: seq<CacheEntry>, rest: set<string>, name: string)
    requires WrittenNamesExcept(extensionPoint, namedComponents, written, rest) && name in rest && name in namedComponents
    ensures WrittenNamesExcept(extensionPoint, namedComponents, written + [CacheEntry(extensionPoint, name, namedComponents[name])], rest - {name})
  {
    var all := written + [CacheEntry(extensionPoint, name, namedComponents[name])];
    forall i, j | 0 <= i < j < |all| ensures all[i].name != all[j].name {
      if j == |written| {
        assert all[i] in written;
      }
    }
  }

  /**
   * Writes one line per name of one extension point, in an unspecified
   * order; `written` are the entries the lines are formed from.
   */
  method WriteImplementations(extensionPoint: ClassName, namedComponents: map<string, ClassName>)
    returns (lines: seq<string>, written: seq<CacheEntry>)
    ensures lines == FormatLines(written)
    ensures forall e :: e in written <==> e.extensionPoint == extensionPoint && e.name in namedComponents && e.impl == namedComponents[e.name]
    ensures forall i, j :: 0 <= i < j < |written| ==> written[i].name != written[j].name
  {
    lines, written := [], [];
    var rest := namedComponents.Keys;
    while rest != {}
      invariant rest <= namedComponents.Keys
      invariant lines == FormatLines(written)
      invariant WrittenNamesExcept(extensionPoint, namedComponents, written, rest)
    {
      var name :| name in rest;
      var e := CacheEntry(extensionPoint, name, namedComponents[name]);
      WriteOneName(extensionPoint, namedComponents, written, rest, name);
      AppendLines(written, [e]);
      lines, written := lines + [FormatLine(e)], written + [e];
      rest := rest - {name};
    }
  }

  /** Appending two runs of entries appends their lines. */
  lemma {:induction false} AppendLines(a: seq<CacheEntry>, b: seq<CacheEntry>)
    ensures FormatLines(a + b) == FormatLines(a) + FormatLines(b)
  {
    if a != [] {
      assert (a + b)[1..] == a[1..] + b;
      AppendLines(a[1..], b);
    }
  }

  /** The entries written so far for `t`: those of the extension points no longer in `rest`, each pair once. */
  ghost predicate WrittenExcept(t: ComponentTable, written: seq<CacheEntry>, rest: set<ClassName>)
  {
    && (forall e :: e in written <==> HoldsEntry(t, e) && e.extensionPoint !in rest)
    && forall i, j :: 0 <= i < j < |written| ==> !SameKey(written[i], written[j])
  }

  /** Writing the entries of one more extension point. */
  lemma WriteOneMore(t: ComponentTable, written: seq<CacheEntry>, rest: set<ClassName>, ep: ClassName, more: seq<CacheEntry>)
    requires WrittenExcept(t, written, rest) && ep in rest && ep in t
    requires forall e :: e in more <==> e.extensionPoint == ep && e.name in t[ep] && e.impl == t[ep][e.name]
    requires forall i, j :: 0 <= i < j < |more| ==> more[i].name != more[j].name
    ensures WrittenExcept(t, written + more, rest - {ep})
  {
    var all := written + more;
    forall i, j | 0 <= i < j < |all| ensures !SameKey(all[i], all[j]) {
      if j >= |written| && i < |written| {
        assert all[i] in written && all[j] in more;
      } else if i >= |written| {
        assert all[i] == more[i - |written|] && all[j] == more[j - |written|];
      }
    }
  }

  /**
   * Writes one line per entry of a crate's table, extension point by
   * extension point; `written` are the entries the lines are formed from.
   */
  method WriteComponentInfoCache(crateComponentInfo: ComponentTable) returns (lines: seq<string>, written: seq<CacheEntry>)
    ensures lines == FormatLines(written) && ListsTable(written, crateComponentInfo)
  {
    lines, written := [], [];
    var rest := crateComponentInfo.Keys;
    while rest != {}
      invariant rest <= crateComponentInfo.Keys
      invariant lines == FormatLines(written)
      invariant WrittenExcept(crateComponentInfo, written, rest)
    {
      var extensibleClass :| extensibleClass in rest;
      var more, moreWritten := WriteImplementations(extensibleClass, crateComponentInfo[extensibleClass]);
      AppendLines(written, moreWritten);
      WriteOneMore(crateComponentInfo, written, rest, extensibleClass, moreWritten);
      lines, written := lines + more, written + moreWritten;
      rest := rest - {extensibleClass};
    }
  }

  /**
   * Loads a crate's cache: no file means no table; otherwise every line is
   * read into the table, and a malformed line is an error.
   */
  method MaybeLoadComponentInfoCache(cacheFile: Option<seq<string>>) returns (r: Result<Option<ComponentTable>, CacheError>)
    ensures cacheFile.None? ==> r == Success(None)
    ensures cacheFile.Some? ==> match DecodeLines(cacheFile.value)
                                case Success(t) => r == Success(Some(t))
                                case Failure(err) => r == Failure(err)
  {
    if cacheFile.None? {
      return Success(None);
    }
    var lines := cacheFile.value;
    var componentInfo: ComponentTable := map[];
    for i := 0 to |lines|
      invariant DecodeLines(lines[..i]) == Success(componentInfo)
    {
      assert lines[..i + 1][..i] == lines[..i];
      var parts := JavaSplit(lines[i]);
      if |parts| != 3 {
        DecodeFailurePersists(lines, i + 1);
        return Failure(MalformedLine(lines[i]));
      }
      var extensibleClass := parts[0];
      var componentName := parts[1];
      var componentImplClass := parts[2];
      componentInfo := componentInfo[extensibleClass := Implementations(componentInfo, extensibleClass)[componentName := componentImplClass]];
    }
    assert lines[..|lines|] == lines;
    return Success(Some(componentInfo));
  }
}

=== FILE: extensible.dfy ===
/**
 * The extensibility closure: starting from a map class name -> root
 * extension point, every class reachable through the hierarchy index is
 * added with the root of the entry it was reached from. A FIFO worklist of
 * (class, root) entries and a set of already expanded classes drive it.
 */
module Extensible {
  import opened ComponentTypes

  /** Consecutive classes of `path` are parent and direct child in `h`. */
  ghost predicate IsPath(h: ClassHierarchy, path: seq<ClassName>)
  {
    forall i :: 0 <= i < |path| - 1 ==> path[i + 1] in Subclasses(h, path[i])
  }

  /** `path` leads through `h` from a key of `roots` carrying `root` down to `c`. */
  ghost predicate RootedPath(h: ClassHierarchy, roots: map<ClassName, ClassName>, path: seq<ClassName>, c: ClassName, root: ClassName)
  {
    && |path| > 0
    && path[0] in roots && roots[path[0]] == root
    && path[|path| - 1] == c
    && IsPath(h, path)
  }

  /** `c` is `root`'s entry or a transitive descendant of a class whose entry is `root`. */
  ghost predicate InheritsFrom(h: ClassHierarchy, roots: map<ClassName, ClassName>, c: ClassName, root: ClassName)
  {
    exists path :: RootedPath(h, roots, path, c, root)
  }

  /** `c` is in `start` or a transitive descendant of a class in `start`. */
  ghost predicate DescendsFrom(h: ClassHierarchy, start: set<ClassName>, c: ClassName)
  {
    exists path :: |path| > 0 && path[0] in start && path[|path| - 1] == c && IsPath(h, path)
  }

  /** No class of `s` has a subclass outside `s`. */
  ghost predicate Closed(h: ClassHierarchy, s: set<ClassName>)
  {
    forall c :: c in s ==> Subclasses(h, c) <= s
  }

  /**
   * An entry of the worklist. The initial worklist is built from the map's
   * own entry set, so its entries are `Live`: their value is the map's value
   * for the class at the time the entry is taken off, including any `put`
   * made since. Entries queued during the walk are `Fixed` copies holding
   * the root they were queued with.
   */
  datatype Pending = Live(classname: ClassName) | Fixed(classname: ClassName, root: ClassName)

  /** The root an entry stands for when it is taken off the worklist, given the current map. */
  function RootOf(e: Pending, m: map<ClassName, ClassName>): ClassName
    requires e.classname in m
  {
    match e
    case Live(c) => m[c]
    case Fixed(_, root) => root
  }

  /** Every `Fixed` worklist entry's class inherits the entry's root. */
  ghost predicate QueueInherits(h: ClassHierarchy, roots: map<ClassName, ClassName>, worklist: seq<Pending>)
  {
    forall i {:trigger InheritsFrom(h, roots, worklist[i].classname, worklist[i].root)} ::
      0 <= i < |worklist| && worklist[i].Fixed? ==> InheritsFrom(h, roots, worklist[i].classname, worklist[i].root)
  }

  /** Every class of `m` inherits the root `m` gives it. */
  ghost predicate MapInherits(h: ClassHierarchy, roots: map<ClassName, ClassName>, m: map<ClassName, ClassName>)
  {
    forall c {:trigger InheritsFrom(h, roots, c, m[c])} :: c in m ==> InheritsFrom(h, roots, c, m[c])
  }

  /** Every class of `roots` inherits its own entry. */
  lemma InheritsOwnEntry(h: ClassHierarchy, roots: map<ClassName, ClassName>, c: ClassName)
    requires c in roots
    ensures InheritsFrom(h, roots, c, roots[c])
  {
    assert RootedPath(h, roots, [c], c, roots[c]);
  }

  /** On entry every class carries its own root. */
  lemma InitiallyInherits(h: ClassHierarchy, roots: map<ClassName, ClassName>)
    ensures MapInherits(h, roots, roots)
  {
    forall c | c in roots ensures InheritsFrom(h, roots, c, roots[c]) {
      InheritsOwnEntry(h, roots, c);
    }
  }

  /** One step down the hierarchy keeps the root a class inherits. */
  lemma InheritsStep(h: ClassHierarchy, roots: map<ClassName, ClassName>, c: ClassName, sub: ClassName, root: ClassName)
    requires InheritsFrom(h, roots, c, root)
    requires sub in Subclasses(h, c)
    ensures InheritsFrom(h, roots, sub, root)
  {
    var path :| RootedPath(h, roots, path, c, root);
    var longer := path + [sub];
    assert forall i :: 0 <= i < |path| ==> longer[i] == path[i];
    assert RootedPath(h, roots, longer, sub, root);
  }

  /** A path that starts inside a closed set never leaves it. */
  lemma {:induction false} PathStaysInside(h: ClassHierarchy, s: set<ClassName>, path: seq<ClassName>)
    requires Closed(h, s)
    requires |path| > 0 && path[0] in s && IsPath(h, path)
    ensures path[|path| - 1] in s
  {
    if |path| > 1 {
      var prefix := path[..|path| - 1];
      assert IsPath(h, prefix) by {
        forall i | 0 <= i < |prefix| - 1 ensures prefix[i + 1] in Subclasses(h, prefix[i]) {
          assert prefix[i] == path[i] && prefix[i + 1] == path[i + 1];
        }
      }
      PathStaysInside(h, s, prefix);
      assert path[|path| - 2] == prefix[|prefix| - 1];
    }
  }

  /**
   * A closed set containing the start classes contains every descendant of
   * them: the closure postcondition in its usual form.
   */
  lemma ClosedContainsDescendants(h: ClassHierarchy, start: set<ClassName>, s: set<ClassName>, c: ClassName)
    requires start <= s && Closed(h, s)
    requires DescendsFrom(h, start, c)
    ensures c in s
  {
    var path :| |path| > 0 && path[0] in start && path[|path| - 1] == c && IsPath(h, path);
    PathStaysInside(h, s, path);
  }

  /** Classes named by the worklist. */
  function Queued(worklist: seq<Pending>): set<ClassName>
  {
    set i | 0 <= i < |worklist| :: worklist[i].classname
  }

  lemma QueuedSnoc(worklist: seq<Pending>, e: Pending)
    ensures Queued(worklist + [e]) == Queued(worklist) + {e.classname}
  {
    var w := worklist + [e];
    assert forall i :: 0 <= i < |worklist| ==> w[i] == worklist[i];
    assert w[|worklist|] == e;
  }

  /** The map's own entries, one per key in an unspecified order, as the initial worklist. */
  method EntriesOf(m: map<ClassName, ClassName>) returns (entries: seq<Pending>)
    ensures Queued(entries) == m.Keys
    ensures forall i :: 0 <= i < |entries| ==> entries[i].Live?
    ensures forall i, j :: 0 <= i < j < |entries| ==> entries[i].classname != entries[j].classname
  {
    entries := [];
    var rest := m.Keys;
    while rest != {}
      invariant rest <= m.Keys
      invariant Queued(entries) == m.Keys - rest
      invariant forall i :: 0 <= i < |entries| ==> entries[i].Live? && entries[i].classname !in rest
      invariant forall i, j :: 0 <= i < j < |entries| ==> entries[i].classname != entries[j].classname
    {
      var c :| c in rest;
      QueuedSnoc(entries, Live(c));
      entries := entries + [Live(c)];
      rest := rest - {c};
    }
  }

  /** Taking the first entry off the worklist. */
  lemma PopFirst(h: ClassHierarchy, roots: map<ClassName, ClassName>, worklist: seq<Pending>)
    requires worklist != [] && QueueInherits(h, roots, worklist)
    ensures worklist[0].Fixed? ==> InheritsFrom(h, roots, worklist[0].classname, worklist[0].root)
    ensures QueueInherits(h, roots, worklist[1..])
    ensures Queued(worklist) == Queued(worklist[1..]) + {worklist[0].classname}
  {
    var rest := worklist[1..];
    if worklist[0].Fixed? {
      assert InheritsFrom(h, roots, worklist[0].classname, worklist[0].root);
    }
    forall i | 0 <= i < |rest| && rest[i].Fixed? ensures InheritsFrom(h, roots, rest[i].classname, rest[i].root) {
      assert rest[i] == worklist[i + 1];
      assert InheritsFrom(h, roots, worklist[i + 1].classname, worklist[i + 1].root);
    }
    assert forall i :: 0 < i < |worklist| ==> worklist[i] == rest[i - 1];
  }

  /** What one expansion of `parent` with `root` keeps: every class still inherits the root it is given. */
  lemma ExpansionInherits(h: ClassHierarchy, roots: map<ClassName, ClassName>, parent: ClassName, root: ClassName,
                          resultBefore: map<ClassName, ClassName>, result: map<ClassName, ClassName>,
                          queueBefore: seq<Pending>, queue: seq<Pending>)
    requires parent in h && InheritsFrom(h, roots, parent, root)
    requires MapInherits(h, roots, resultBefore) && QueueInherits(h, roots, queueBefore)
    requires result.Keys == resultBefore.Keys + h[parent]
    requires forall c {:trigger result[c]} :: c in result ==> result[c] == if c in h[parent] then root else resultBefore[c]
    requires |queueBefore| <= |queue| && queue[..|queueBefore|] == queueBefore
    requires forall i :: |queueBefore| <= i < |queue| ==> queue[i] == Fixed(queue[i].classname, root) && queue[i].classname in h[parent]
    ensures MapInherits(h, roots, result) && QueueInherits(h, roots, queue)
  {
    forall i | 0 <= i < |queue| && queue[i].Fixed? ensures InheritsFrom(h, roots, queue[i].classname, queue[i].root) {
      if i < |queueBefore| {
        assert queue[i] == queueBefore[i];
        assert InheritsFrom(h, roots, queueBefore[i].classname, queueBefore[i].root);
      } else {
        InheritsStep(h, roots, parent, queue[i].classname, root);
      }
    }
    forall c | c in result ensures InheritsFrom(h, roots, c, result[c]) {
      if c in h[parent] {
        InheritsStep(h, roots, parent, c, root);
      } else {
        assert InheritsFrom(h, roots, c, resultBefore[c]);
      }
    }
  }

  /** A closed superset of the start classes whose every class inherits a root is exactly the set of descendants. */
  lemma ClosureKeys(h: ClassHierarchy, roots: map<ClassName, ClassName>, result: map<ClassName, ClassName>)
    requires roots.Keys <= result.Keys && Closed(h, result.Keys) && MapInherits(h, roots, result)
    ensures forall c {:trigger DescendsFrom(h, roots.Keys, c)} :: c in result <==> DescendsFrom(h, roots.Keys, c)
  {
    forall c | c in result ensures DescendsFrom(h, roots.Keys, c) {
      assert InheritsFrom(h, roots, c, result[c]);
      var path :| RootedPath(h, roots, path, c, result[c]);
    }
    forall c | DescendsFrom(h, roots.Keys, c) ensures c in result {
      ClosedContainsDescendants(h, roots.Keys, result.Keys, c);
    }
  }

  /** Classes that inherit their roots carry only roots present in `roots`. */
  lemma InheritedRootsAreRoots(h: ClassHierarchy, roots: map<ClassName, ClassName>, result: map<ClassName, ClassName>)
    requires MapInherits(h, roots, result)
    ensures result.Values <= roots.Values
  {
    forall c | c in result ensures result[c] in roots.Values {
      assert InheritsFrom(h, roots, c, result[c]);
      var path :| RootedPath(h, roots, path, c, result[c]);
      assert roots[path[0]] in roots.Values;
    }
  }

  /**
   * `queued` is `before` followed by one `Fixed` entry with `root` for each
   * class of `done`, each class once.
   */
  ghost predicate AppendedOnce(before: seq<Pending>, queued: seq<Pending>, done: set<ClassName>, root: ClassName)
  {
    && |before| <= |queued| && queued[..|before|] == before
    && (forall i :: |before| <= i < |queued| ==> queued[i] == Fixed(queued[i].classname, root) && queued[i].classname in done)
    && (forall i, j :: |before| <= i < j < |queued| ==> queued[i].classname != queued[j].classname)
    && Queued(queued) == Queued(before) + done
  }

  /** Appending the entry of one more class. */
  lemma AppendOne(before: seq<Pending>, queued: seq<Pending>, done: set<ClassName>, root: ClassName, c: ClassName)
    requires AppendedOnce(before, queued, done, root) && c !in done
    ensures AppendedOnce(before, queued + [Fixed(c, root)], done + {c}, root)
  {
    var q := queued + [Fixed(c, root)];
    QueuedSnoc(queued, Fixed(c, root));
    assert q[..|before|] == queued[..|before|];
    forall i, j | |before| <= i < j < |q| ensures q[i].classname != q[j].classname {
      if j == |queued| {
        assert q[i] == queued[i];
      }
    }
  }

  /**
   * Puts every class of `subclasses` into `extensible` with `root` and
   * appends a `Fixed` entry for it to the worklist, one per class in an
   * unspecified order.
   */
  method PutSubclasses(extensible: map<ClassName, ClassName>, toCheckDescendants: seq<Pending>, subclasses: set<ClassName>, root: ClassName)
    returns (extended: map<ClassName, ClassName>, queued: seq<Pending>)
    ensures extended.Keys == extensible.Keys + subclasses
    ensures forall c {:trigger extended[c]} :: c in extended ==> extended[c] == if c in subclasses then root else extensible[c]
    ensures |toCheckDescendants| <= |queued| && queued[..|toCheckDescendants|] == toCheckDescendants
    ensures forall i :: |toCheckDescendants| <= i < |queued| ==> queued[i] == Fixed(queued[i].classname, root) && queued[i].classname in subclasses
    ensures forall i, j :: |toCheckDescendants| <= i < j < |queued| ==> queued[i].classname != queued[j].classname
    ensures Queued(queued) == Queued(toCheckDescendants) + subclasses
  {
    extended, queued := extensible, toCheckDescendants;
    var remaining := subclasses;
    while remaining != {}
      invariant remaining <= subclasses
      invariant extended.Keys == extensible.Keys + (subclasses - remaining)
      invariant forall c {:trigger extended[c]} :: c in extended ==> extended[c] == if c in subclasses - remaining then root else extensible[c]
      invariant AppendedOnce(toCheckDescendants, queued, subclasses - remaining, root)
    {
      var subclass :| subclass in remaining;
      extended := extended[subclass := root];
      AppendOne(toCheckDescendants, queued, subclasses - remaining, root, subclass);
      queued := queued + [Fixed(subclass, root)];
      assert subclasses - remaining + {subclass} == subclasses - (remaining - {subclass});
      remaining := remaining - {subclass};
    }
  }

  /**
   * The worklist loop's invariant: the start classes are kept, every expanded
   * class has all its subclasses present, every present class with subclasses
   * is expanded or still queued, and every class and entry inherits its root.
   */
  ghost predicate Progress(h: ClassHierarchy, roots: map<ClassName, ClassName>, result: map<ClassName, ClassName>,
                           worklist: seq<Pending>, processed: set<ClassName>)
  {
    && roots.Keys <= result.Keys
    && processed <= result.Keys * h.Keys
    && Queued(worklist) <= result.Keys
    && (forall c :: c in processed ==> h[c] <= result.Keys)
    && (forall c :: c in result && c in h ==> c in processed || c in Queued(worklist))
    && QueueInherits(h, roots, worklist)
    && MapInherits(h, roots, result)
  }

  /** Dropping an entry whose class is already expanded or has no subclasses. */
  lemma SkipStep(h: ClassHierarchy, roots: map<ClassName, ClassName>, result: map<ClassName, ClassName>,
                 worklist: seq<Pending>, processed: set<ClassName>)
    requires worklist != [] && Progress(h, roots, result, worklist, processed)
    requires worklist[0].classname in processed || worklist[0].classname !in h
    ensures Progress(h, roots, result, worklist[1..], processed)
  {
    PopFirst(h, roots, worklist);
  }

  /**
   * Every class of `m` with a parent among `parents` holds a root that one
   * of those parents inherits: a class's last `put` is made while one of its
   * parents is expanded, with that parent's root.
   */
  ghost predicate ParentRooted(h: ClassHierarchy, roots: map<ClassName, ClassName>, m: map<ClassName, ClassName>, parents: set<ClassName>)
  {
    forall c, p :: c in m && p in parents && c in Subclasses(h, p) ==>
      exists q :: q in parents && c in Subclasses(h, q) && InheritsFrom(h, roots, q, m[c])
  }

  /** Expanding `parent` with a root it inherits keeps `ParentRooted` over the expanded classes. */
  lemma ParentRootedStep(h: ClassHierarchy, roots: map<ClassName, ClassName>, result: map<ClassName, ClassName>,
                         processed: set<ClassName>, parent: ClassName, root: ClassName, result': map<ClassName, ClassName>)
    requires ParentRooted(h, roots, result, processed)
    requires parent in h && InheritsFrom(h, roots, parent, root)
    requires result'.Keys == result.Keys + h[parent]
    requires forall d {:trigger result'[d]} :: d in result' ==> result'[d] == if d in h[parent] then root else result[d]
    ensures ParentRooted(h, roots, result', processed + {parent})
  {
    var parents := processed + {parent};
    forall c, p | c in result' && p in parents && c in Subclasses(h, p)
      ensures exists q :: q in parents && c in Subclasses(h, q) && InheritsFrom(h, roots, q, result'[c])
    {
      if c in h[parent] {
        assert c in Subclasses(h, parent) && InheritsFrom(h, roots, parent, result'[c]);
      } else {
        assert p in processed && c in result;
        var q :| q in processed && c in Subclasses(h, q) && InheritsFrom(h, roots, q, result[c]);
        assert q in parents && result'[c] == result[c];
      }
    }
  }

  /** Once every present class with subclasses is expanded, `ParentRooted` holds over all present classes. */
  lemma ParentRootedAll(h: ClassHierarchy, roots: map<ClassName, ClassName>, m: map<ClassName, ClassName>, processed: set<ClassName>)
    requires ParentRooted(h, roots, m, processed) && processed <= m.Keys
    requires forall c :: c in m && c in h ==> c in processed
    ensures ParentRooted(h, roots, m, m.Keys)
  {
    forall c, p | c in m && p in m && c in Subclasses(h, p)
      ensures exists q :: q in m && c in Subclasses(h, q) && InheritsFrom(h, roots, q, m[c])
    {
      assert p in processed;
      var q :| q in processed && c in Subclasses(h, q) && InheritsFrom(h, roots, q, m[c]);
    }
  }

  /**
   * Expanding the first entry with the root it stands for: its subclasses
   * are put and queued, and it becomes processed.
   */
  lemma ExpandStep(h: ClassHierarchy, roots: map<ClassName, ClassName>, result: map<ClassName, ClassName>,
                   worklist: seq<Pending>, processed: set<ClassName>, root: ClassName,
                   result': map<ClassName, ClassName>, worklist': seq<Pending>)
    requires worklist != [] && Progress(h, roots, result, worklist, processed)
    requires ParentRooted(h, roots, result, processed)
    requires worklist[0].classname !in processed && worklist[0].classname in h
    requires worklist[0].classname in result && root == RootOf(worklist[0], result)
    requires var c := worklist[0].classname;
      && result'.Keys == result.Keys + h[c]
      && (forall d {:trigger result'[d]} :: d in result' ==> result'[d] == if d in h[c] then root else result[d])
      && |worklist| - 1 <= |worklist'| && worklist'[..|worklist| - 1] == worklist[1..]
      && (forall i :: |worklist| - 1 <= i < |worklist'| ==> worklist'[i] == Fixed(worklist'[i].classname, root) && worklist'[i].classname in h[c])
      && Queued(worklist') == Queued(worklist[1..]) + h[c]
    ensures Progress(h, roots, result', worklist', processed + {worklist[0].classname})
    ensures ParentRooted(h, roots, result', processed + {worklist[0].classname})
  {
    var c := worklist[0].classname;
    PopFirst(h, roots, worklist);
    assert InheritsFrom(h, roots, c, root);
    ExpansionInherits(h, roots, c, root, result, result', worklist[1..], worklist');
    ParentRootedStep(h, roots, result, processed, c, root, result');
  }

  /**
   * Adds every descendant of the classes of `extensible` to it, each with the
   * root of the entry it was reached from; a starting entry's root is read
   * from the map when the entry is taken off the worklist. `expanded` lists
   * the classes whose subclasses were visited, in order.
   */
  method AddExtensibleDescendants(extensible: map<ClassName, ClassName>, classToSubclasses: ClassHierarchy)
    returns (result: map<ClassName, ClassName>, ghost expanded: seq<ClassName>)
    ensures extensible.Keys <= result.Keys
    ensures Closed(classToSubclasses, result.Keys)
    ensures MapInherits(classToSubclasses, extensible, result)
    ensures forall c {:trigger DescendsFrom(classToSubclasses, extensible.Keys, c)} :: c in result <==> DescendsFrom(classToSubclasses, extensible.Keys, c)
    ensures result.Values <= extensible.Values
    ensures ParentRooted(classToSubclasses, extensible, result, result.Keys)
    ensures forall i, j :: 0 <= i < j < |expanded| ==> expanded[i] != expanded[j]
    ensures forall c :: c in expanded <==> c in result && c in classToSubclasses
  {
    var toCheckDescendants := EntriesOf(extensible);
    var processed: set<ClassName> := {};
    result := extensible;
    expanded := [];
    InitiallyInherits(classToSubclasses, extensible);
    while toCheckDescendants != []
      invariant Progress(classToSubclasses, extensible, result, toCheckDescendants, processed)
      invariant forall i, j :: 0 <= i < j < |expanded| ==> expanded[i] != expanded[j]
      invariant forall c :: c in expanded <==> c in processed
      invariant ParentRooted(classToSubclasses, extensible, result, processed)
      decreases classToSubclasses.Keys - processed, |toCheckDescendants|
    {
      var e := toCheckDescendants[0];
      if e.classname !in processed && e.classname in classToSubclasses {
        assert e.classname in Queued(toCheckDescendants);
        var root := RootOf(e, result);
        var result', toCheckDescendants' := PutSubclasses(result, toCheckDescendants[1..], classToSubclasses[e.classname], root);
        ExpandStep(classToSubclasses, extensible, result, toCheckDescendants, processed, root, result', toCheckDescendants');
        result, toCheckDescendants := result', toCheckDescendants';
        processed := processed + {e.classname};
        expanded := expanded + [e.classname];
      } else {
        SkipStep(classToSubclasses, extensible, result, toCheckDescendants, processed);
        toCheckDescendants := toCheckDescendants[1..];
      }
    }
    ParentRootedAll(classToSubclasses, extensible, result, processed);
    ClosureKeys(classToSubclasses, extensible, result);
    InheritedRootsAreRoots(classToSubclasses, extensible, result);
  }
}

=== FILE: hierarchy.dfy ===
/**
 * The hierarchy index: a class visitor that records, for every class it is
 * shown, an edge from its superclass and from each declared interface to
 * the class itself, and that reports the classes carrying one target
 * annotation.
 */
module Hierarchy {
  import opened ComponentTypes

  /** The index after one class `name` declares `superName` and `interfaces`. */
  function RecordClass(h: ClassHierarchy, name: ClassName, superName: ClassName, interfaces: seq<ClassName>): ClassHierarchy
  {
    map p | p in h.Keys + {superName} + (set i | i in interfaces) ::
      Subclasses(h, p) + (if p == superName || p in interfaces then {name} else {})
  }

  /**
   * Recording a class adds it under its superclass and under each of its
   * interfaces, keeps every edge already recorded, and adds nothing else.
   */
  lemma RecordClassEdges(h: ClassHierarchy, name: ClassName, superName: ClassName, interfaces: seq<ClassName>, p: ClassName)
    ensures var r := RecordClass(h, name, superName, interfaces);
            && (p == superName || p in interfaces ==> name in Subclasses(r, p))
            && Subclasses(h, p) <= Subclasses(r, p)
            && Subclasses(r, p) <= Subclasses(h, p) + {name}
            && (p != superName && p !in interfaces ==> Subclasses(r, p) == Subclasses(h, p))
  {
  }

  /** Recording a class without interfaces adds one edge, from its superclass. */
  lemma RecordClassNoInterfaces(h: ClassHierarchy, name: ClassName, superName: ClassName)
    ensures RecordClass(h, name, superName, []) == h[superName := Subclasses(h, superName) + {name}]
  {
    var r := RecordClass(h, name, superName, []);
    assert (set i: ClassName | i in []) == {};
    assert r.Keys == h.Keys + {superName};
    forall p | p in r ensures r[p] == h[superName := Subclasses(h, superName) + {name}][p] {
      RecordClassEdges(h, name, superName, [], p);
    }
  }

  /** Recording a class with one more interface adds one more edge. */
  lemma RecordClassSnoc(h: ClassHierarchy, name: ClassName, superName: ClassName, interfaces: seq<ClassName>, iface: ClassName)
    ensures var r := RecordClass(h, name, superName, interfaces);
            RecordClass(h, name, superName, interfaces + [iface]) == r[iface := Subclasses(r, iface) + {name}]
  {
    var r := RecordClass(h, name, superName, interfaces);
    var r' := RecordClass(h, name, superName, interfaces + [iface]);
    assert forall i :: i in interfaces + [iface] <==> i in interfaces || i == iface;
    assert (set i | i in interfaces + [iface]) == (set i | i in interfaces) + {iface};
    assert r'.Keys == r.Keys + {iface};
    forall p | p in r' ensures r'[p] == r[iface := Subclasses(r, iface) + {name}][p] {
      RecordClassEdges(h, name, superName, interfaces, p);
    }
  }

  /** The index built from visiting `classes` in order, starting empty. */
  function IndexClasses(classes: seq<ClassRecord>): ClassHierarchy
  {
    if classes == [] then map[]
    else
      var last := classes[|classes| - 1];
      RecordClass(IndexClasses(classes[..|classes| - 1]), last.name, last.superName, last.interfaces)
  }

  /** `child` directly declares `parent` as its superclass or as one of its interfaces. */
  predicate Declares(c: ClassRecord, parent: ClassName)
  {
    parent == c.superName || parent in c.interfaces
  }

  /** Every edge some visited class declares is in the index. */
  lemma {:induction false} IndexClassesComplete(classes: seq<ClassRecord>, k: nat, parent: ClassName)
    requires k < |classes| && Declares(classes[k], parent)
    ensures classes[k].name in Subclasses(IndexClasses(classes), parent)
  {
    var n := |classes| - 1;
    var last := classes[n];
    RecordClassEdges(IndexClasses(classes[..n]), last.name, last.superName, last.interfaces, parent);
    if k < n {
      IndexClassesComplete(classes[..n], k, parent);
    }
  }

  /** Every edge in the index was declared by some visited class. */
  lemma {:induction false} IndexClassesSound(classes: seq<ClassRecord>, parent: ClassName, child: ClassName)
    requires child in Subclasses(IndexClasses(classes), parent)
    ensures exists k :: 0 <= k < |classes| && classes[k].name == child && Declares(classes[k], parent)
  {
    var n := |classes| - 1;
    var prefix := classes[..n];
    RecordClassEdges(IndexClasses(prefix), classes[n].name, classes[n].superName, classes[n].interfaces, parent);
    if child in Subclasses(IndexClasses(prefix), parent) {
      IndexClassesSound(prefix, parent, child);
      var k :| 0 <= k < |prefix| && prefix[k].name == child && Declares(prefix[k], parent);
      assert classes[k] == prefix[k];
    } else {
      assert classes[n].name == child && Declares(classes[n], parent);
    }
  }

  /**
   * An edge is in the index exactly when some visited class declares it:
   * nothing is lost and nothing is invented.
   */
  lemma IndexClassesEdges(classes: seq<ClassRecord>, parent: ClassName, child: ClassName)
    ensures child in Subclasses(IndexClasses(classes), parent) <==>
            exists k :: 0 <= k < |classes| && classes[k].name == child && Declares(classes[k], parent)
  {
    if child in Subclasses(IndexClasses(classes), parent) {
      IndexClassesSound(classes, parent, child);
    }
    if exists k :: 0 <= k < |classes| && classes[k].name == child && Declares(classes[k], parent) {
      var k :| 0 <= k < |classes| && classes[k].name == child && Declares(classes[k], parent);
      IndexClassesComplete(classes, k, parent);
    }
  }

  /** Visiting more classes only adds edges. */
  lemma {:induction false} IndexClassesGrows(classes: seq<ClassRecord>, more: seq<ClassRecord>, parent: ClassName)
    ensures Subclasses(IndexClasses(classes), parent) <= Subclasses(IndexClasses(classes + more), parent)
  {
    forall child | child in Subclasses(IndexClasses(classes), parent)
      ensures child in Subclasses(IndexClasses(classes + more), parent)
    {
      IndexClassesEdges(classes, parent, child);
      var k :| 0 <= k < |classes| && classes[k].name == child && Declares(classes[k], parent);
      assert (classes + more)[k] == classes[k];
      IndexClassesEdges(classes + more, parent, child);
    }
  }

  /**
   * The visitor. `classToSubclasses` is the index it accumulates;
   * `currentName` is the class whose annotations are being reported.
   */
  class AnnotatedHierarchyVisitor {
    var currentName: ClassName
    const targetAnnotationDescriptor: string
    var classToSubclasses: ClassHierarchy

    constructor (targetAnnotationDescriptor: string)
      ensures this.targetAnnotationDescriptor == targetAnnotationDescriptor
      ensures classToSubclasses == map[]
    {
      this.targetAnnotationDescriptor := targetAnnotationDescriptor;
      currentName := "";
      classToSubclasses := map[];
    }

    /** Records the class header: `name` becomes a child of its superclass and of each interface. */
    method Visit(name: ClassName, superName: ClassName, interfaces: seq<ClassName>)
      modifies this
      ensures currentName == name
      ensures classToSubclasses == RecordClass(old(classToSubclasses), name, superName, interfaces)
    {
      currentName := name;
      ghost var h0 := classToSubclasses;
      classToSubclasses := classToSubclasses[superName := Subclasses(classToSubclasses, superName) + {name}];
      RecordClassNoInterfaces(h0, name, superName);
      for k := 0 to |interfaces|
        invariant currentName == name
        invariant classToSubclasses == RecordClass(h0, name, superName, interfaces[..k])
      {
        var iface := interfaces[k];
        classToSubclasses := classToSubclasses[iface := Subclasses(classToSubclasses, iface) + {name}];
        assert interfaces[..k + 1] == interfaces[..k] + [iface];
        RecordClassSnoc(h0, name, superName, interfaces[..k], iface);
      }
      assert interfaces[..|interfaces|] == interfaces;
    }

    /**
     * Reports the current class when the annotation is the target one;
     * the caller applies its callback to the reported class.
     */
    method VisitAnnotation(descriptor: string) returns (hit: Option<ClassName>)
      ensures hit.Some? <==> descriptor == targetAnnotationDescriptor
      ensures hit.Some? ==> hit.value == currentName
    {
      if descriptor == targetAnnotationDescriptor {
        hit := Some(currentName);
      } else {
        hit := None;
      }
    }

    /** The accumulated map from class name to its direct subclasses, as the visitor holds it. */
    function GetClassHierarchy(): (h: ClassHierarchy)
      reads this
      ensures h == classToSubclasses
    {
      classToSubclasses
    }
  }
}

=== FILE: registry.dfy ===
/**
 * The component registry: built once from the host class path and the
 * crates directory, crate by crate (a crate's cache when it has one, a scan
 * of its classes otherwise), and then queried for a named implementation of
 * an extension point.
 */
module Registry {
  import opened ComponentTypes
  import opened Hierarchy
  import opened Scanner
  import opened DiscoveryCache
  import Extensible

  /** A crate directory: its name, the classes of its jars, and the lines of its cache file when there is one. */
  datatype Crate = Crate(name: string, classes: seq<ClassRecord>, cacheFile: Option<seq<string>>)

  /** Why the registry cannot be built. */
  datatype ServiceError =
    | CacheUnreadable(crate: string, cacheError: CacheError)
    | ComponentsUnresolved(crate: string, scanError: ScanError)

  /** Why a lookup fails. */
  datatype LookupError =
    | NoImplementationsFound(extensionPoint: ClassName)
    | NoImplementationFound(name: string, extensionPoint: ClassName)

  /** The cache file written for a crate that had none. */
  datatype CacheWrite = CacheWrite(crate: string, lines: seq<string>)

  /**
   * The global table after merging one crate's table into it: for every
   * extension point of the crate, `computeIfAbsent` then `putAll`.
   */
  function PutAll(global: ComponentTable, crateInfo: ComponentTable): ComponentTable
  {
    map ep | ep in global.Keys + crateInfo.Keys :: Implementations(global, ep) + Implementations(crateInfo, ep)
  }

  /**
   * What merging one crate does: the extension points and names of both
   * tables are kept, a name the crate files takes the crate's class, and
   * every other name keeps its class.
   */
  lemma PutAllLookup(global: ComponentTable, crateInfo: ComponentTable, ep: ClassName, n: string)
    ensures ep in PutAll(global, crateInfo) <==> ep in global || ep in crateInfo
    ensures n in Implementations(PutAll(global, crateInfo), ep) <==> n in Implementations(global, ep) || n in Implementations(crateInfo, ep)
    ensures n in Implementations(crateInfo, ep) ==> Implementations(PutAll(global, crateInfo), ep)[n] == crateInfo[ep][n]
    ensures n in Implementations(global, ep) && n !in Implementations(crateInfo, ep) ==>
              Implementations(PutAll(global, crateInfo), ep)[n] == global[ep][n]
  {
  }

  /** The global table after merging every crate's table, in order. */
  function MergeAll(tables: seq<ComponentTable>): ComponentTable
  {
    if tables == [] then map[] else PutAll(MergeAll(tables[..|tables| - 1]), tables[|tables| - 1])
  }

  /** After merging one more extension point, the merged table has one more extension point. */
  lemma PutAllStepKeys(global: ComponentTable, done: ComponentTable, ep: ClassName, impls: map<string, ClassName>)
    ensures PutAll(global, done[ep := impls]).Keys == PutAll(global, done).Keys + {ep}
  {
  }

  /** After merging one more extension point, that extension point holds its old names followed by the new ones. */
  lemma PutAllStepNew(global: ComponentTable, done: ComponentTable, ep: ClassName, impls: map<string, ClassName>)
    requires ep !in done
    ensures PutAll(global, done[ep := impls])[ep] == Implementations(PutAll(global, done), ep) + impls
  {
    assert Implementations(PutAll(global, done), ep) == Implementations(global, ep) + map[];
    assert Implementations(global, ep) + map[] == Implementations(global, ep);
  }

  /** Merging one more extension point leaves every other extension point as it was. */
  lemma PutAllStepOther(global: ComponentTable, done: ComponentTable, ep: ClassName, impls: map<string, ClassName>, p: ClassName)
    requires p != ep && p in PutAll(global, done)
    ensures PutAll(global, done[ep := impls])[p] == PutAll(global, done)[p]
  {
    assert Implementations(done[ep := impls], p) == Implementations(done, p);
  }

  /** After merging one more extension point, every extension point holds what one more `putAll` gives it. */
  lemma PutAllStepAt(global: ComponentTable, done: ComponentTable, ep: ClassName, impls: map<string, ClassName>, p: ClassName)
    requires ep !in done && p in PutAll(global, done[ep := impls])
    ensures PutAll(global, done[ep := impls])[p] == PutAll(global, done)[ep := Implementations(PutAll(global, done), ep) + impls][p]
  {
    if p == ep {
      PutAllStepNew(global, done, ep, impls);
    } else {
      PutAllStepKeys(global, done, ep, impls);
      PutAllStepOther(global, done, ep, impls, p);
    }
  }

  /** Merging one more extension point of a crate. */
  lemma PutAllStep(global: ComponentTable, done: ComponentTable, ep: ClassName, impls: map<string, ClassName>)
    requires ep !in done
    ensures PutAll(global, done[ep := impls]) == PutAll(global, done)[ep := Implementations(PutAll(global, done), ep) + impls]
  {
    var a := PutAll(global, done[ep := impls]);
    var b := PutAll(global, done)[ep := Implementations(PutAll(global, done), ep) + impls];
    PutAllStepKeys(global, done, ep, impls);
    forall p | p in a ensures a[p] == b[p] {
      PutAllStepAt(global, done, ep, impls, p);
    }
  }

  /** Merging an empty crate table changes nothing. */
  lemma PutAllEmpty(global: ComponentTable)
    ensures PutAll(global, map[]) == global
  {
    forall ep | ep in global ensures PutAll(global, map[])[ep] == global[ep] {
      assert global[ep] + map[] == global[ep];
    }
  }

  /** Merges one crate's table into the global one, extension point by extension point in an unspecified order. */
  method MergeCrate(componentInfo: ComponentTable, crateComponentInfo: ComponentTable) returns (merged: ComponentTable)
    ensures merged == PutAll(componentInfo, crateComponentInfo)
  {
    merged := componentInfo;
    ghost var done: ComponentTable := map[];
    PutAllEmpty(componentInfo);
    var rest := crateComponentInfo.Keys;
    while rest != {}
      invariant rest <= crateComponentInfo.Keys
      invariant done.Keys == crateComponentInfo.Keys - rest
      invariant forall ep :: ep in done ==> done[ep] == crateComponentInfo[ep]
      invariant merged == PutAll(componentInfo, done)
    {
      var baseClass :| baseClass in rest;
      var globalInfos := Implementations(merged, baseClass);
      PutAllStep(componentInfo, done, baseClass, crateComponentInfo[baseClass]);
      merged := merged[baseClass := globalInfos + crateComponentInfo[baseClass]];
      done := done[baseClass := crateComponentInfo[baseClass]];
      rest := rest - {baseClass};
    }
    assert done == crateComponentInfo;
  }

  /** An extension point is known exactly when some crate files it. */
  lemma {:induction false} MergeAllKeys(tables: seq<ComponentTable>, ep: ClassName)
    ensures ep in MergeAll(tables) <==> exists k :: 0 <= k < |tables| && ep in tables[k]
  {
    if tables != [] {
      var n := |tables| - 1;
      var prefix := tables[..n];
      MergeAllKeys(prefix, ep);
      PutAllLookup(MergeAll(prefix), tables[n], ep, "");
      assert forall k :: 0 <= k < n ==> prefix[k] == tables[k];
    }
  }

  /** A name is registered for an extension point exactly when some crate files it there. */
  lemma {:induction false} MergeAllNames(tables: seq<ComponentTable>, ep: ClassName, name: string)
    ensures name in Implementations(MergeAll(tables), ep) <==> exists k :: 0 <= k < |tables| && name in Implementations(tables[k], ep)
  {
    if tables != [] {
      var n := |tables| - 1;
      var prefix := tables[..n];
      MergeAllNames(prefix, ep, name);
      PutAllLookup(MergeAll(prefix), tables[n], ep, name);
      assert forall k :: 0 <= k < n ==> prefix[k] == tables[k];
    }
  }

  /** `tables[k]` is the last crate filing `name` under `ep`. */
  ghost predicate LastFiledAt(tables: seq<ComponentTable>, k: int, ep: ClassName, name: string)
  {
    && 0 <= k < |tables| && name in Implementations(tables[k], ep)
    && forall j :: k < j < |tables| ==> name !in Implementations(tables[j], ep)
  }

  /** Two crates filing the same name under the same extension point: the later crate's class is kept. */
  lemma {:induction false} MergeAllLastWins(tables: seq<ComponentTable>, k: int, ep: ClassName, name: string)
    requires LastFiledAt(tables, k, ep, name)
    ensures name in Implementations(MergeAll(tables), ep) && MergeAll(tables)[ep][name] == tables[k][ep][name]
  {
    var n := |tables| - 1;
    PutAllLookup(MergeAll(tables[..n]), tables[n], ep, name);
    if k < n {
      assert name !in Implementations(tables[n], ep);
      MergeAllLastWins(tables[..n], k, ep, name);
    }
  }

  /** The registry: extension point -> component name -> implementing class, fixed once built. */
  datatype ComponentService = ComponentService(componentInfo: ComponentTable)
  {
    /**
     * The class registered as `name` for `extensionPoint`; fails when the
     * extension point has no implementations at all, and, differently, when
     * it has some but none called `name`.
     */
    function GetNamedComponent(name: string, extensionPoint: ClassName): (r: Result<ClassName, LookupError>)
      ensures r.Success? <==> name in Implementations(componentInfo, extensionPoint)
      ensures r.Success? ==> r.value == componentInfo[extensionPoint][name]
      ensures r.Failure? ==> r.error.extensionPoint == extensionPoint
                             && (r.error.NoImplementationsFound? <==> extensionPoint !in componentInfo)
                             && (r.error.NoImplementationFound? ==> r.error.name == name)
    {
      if extensionPoint !in componentInfo then Failure(NoImplementationsFound(extensionPoint))
      else if name !in componentInfo[extensionPoint] then Failure(NoImplementationFound(name, extensionPoint))
      else Success(componentInfo[extensionPoint][name])
    }
  }

  /**
   * A lookup in a registry merged from crate tables: it finds the class of
   * the last crate filing the name, fails with "no implementations" when no
   * crate files the extension point, and with "no implementation [name]"
   * when some crate files the extension point but none files the name there.
   */
  lemma LookupAfterMerge(tables: seq<ComponentTable>, name: string, extensionPoint: ClassName)
    ensures var r := ComponentService(MergeAll(tables)).GetNamedComponent(name, extensionPoint);
            && (r == Failure(NoImplementationsFound(extensionPoint)) <==> forall k :: 0 <= k < |tables| ==> extensionPoint !in tables[k])
            && (r == Failure(NoImplementationFound(name, extensionPoint)) <==>
                  && (exists k :: 0 <= k < |tables| && extensionPoint in tables[k])
                  && forall k :: 0 <= k < |tables| ==> name !in Implementations(tables[k], extensionPoint))
            && forall k :: LastFiledAt(tables, k, extensionPoint, name) ==> r == Success(tables[k][extensionPoint][name])
  {
    MergeAllKeys(tables, extensionPoint);
    MergeAllNames(tables, extensionPoint, name);
    forall k | LastFiledAt(tables, k, extensionPoint, name)
      ensures ComponentService(MergeAll(tables)).GetNamedComponent(name, extensionPoint) == Success(tables[k][extensionPoint][name])
    {
      MergeAllLastWins(tables, k, extensionPoint, name);
    }
  }

  /**
   * The table one crate contributes: its cache when present, otherwise its
   * named components, each filed under an extension point its class
   * inherits from the host's `extensible` map.
   */
  ghost predicate CrateTable(crate: Crate, extensible: map<ClassName, ClassName>, t: ComponentTable)
  {
    match crate.cacheFile
    case Some(lines) => DecodeLines(lines) == Success(t)
    case None =>
      var named := CollectNamed(AnnotationHits(crate.classes, NamedComponentDescriptor));
      && (forall n :: n in named <==> exists ep :: n in Implementations(t, ep))
      && (forall ep, n :: n in Implementations(t, ep) ==>
            t[ep][n] == named[n] && Extensible.InheritsFrom(IndexClasses(crate.classes), extensible, named[n], ep))
      && EachNameOnce(t)
      && NoEmptyExtensionPoint(t)
  }

  /** The named components a scan of the crate's classes collects. */
  ghost function NamedOf(crate: Crate): map<string, ClassName>
  {
    CollectNamed(AnnotationHits(crate.classes, NamedComponentDescriptor))
  }

  /** The component `n` of the crate is named, but its class descends from no host extension point. */
  ghost predicate Unresolved(crate: Crate, extensible: map<ClassName, ClassName>, n: string)
  {
    n in NamedOf(crate) && !Extensible.DescendsFrom(IndexClasses(crate.classes), extensible.Keys, NamedOf(crate)[n])
  }

  /** Loading the crate fails: its cache file has a malformed line, or it has none and a component is unresolved. */
  ghost predicate CrateFails(crate: Crate, extensible: map<ClassName, ClassName>)
  {
    match crate.cacheFile
    case Some(lines) => DecodeLines(lines).Failure?
    case None => exists n :: Unresolved(crate, extensible, n)
  }

  /** `err` is a failure of loading `crate` and says why. */
  ghost predicate CrateError(crate: Crate, extensible: map<ClassName, ClassName>, err: ServiceError)
  {
    && err.crate == crate.name
    && match err
       case CacheUnreadable(_, cacheError) =>
         crate.cacheFile.Some? && DecodeLines(crate.cacheFile.value) == Failure(cacheError)
       case ComponentsUnresolved(_, scanError) =>
         && crate.cacheFile.None? && Unresolved(crate, extensible, scanError.name)
         && scanError.classname == NamedOf(crate)[scanError.name]
  }

  /**
   * Reloading a crate from the cache written for it gives the table its
   * scan gave, provided no identifier or name holds a space and no class
   * name is empty.
   */
  lemma CacheHitSameTable(crate: Crate, extensible: map<ClassName, ClassName>, t: ComponentTable, entries: seq<CacheEntry>)
    requires crate.cacheFile.None? && CrateTable(crate, extensible, t)
    requires ListsTable(entries, t) && WellFormedTable(t)
    ensures CrateTable(crate.(cacheFile := Some(FormatLines(entries))), extensible, t)
  {
    RoundTrip(entries, t);
  }

  /** A crate without a cache loads as its discovery turns out. */
  lemma ScanOutcome(crate: Crate, extensible: map<ClassName, ClassName>, found: Result<ComponentTable, ScanError>)
    requires crate.cacheFile.None? && Discovered(crate.classes, extensible, found)
    ensures found.Failure? <==> CrateFails(crate, extensible)
    ensures found.Failure? ==> CrateError(crate, extensible, ComponentsUnresolved(crate.name, found.error))
    ensures found.Success? ==> CrateTable(crate, extensible, found.value)
  {
    if found.Failure? {
      assert Unresolved(crate, extensible, found.error.name);
    }
  }

  /**
   * One crate's step of the constructor: its cache when there is one,
   * otherwise a scan of its classes followed by writing its cache.
   */
  method LoadCrate(crate: Crate, extensible: map<ClassName, ClassName>)
    returns (r: Result<ComponentTable, ServiceError>, write: Option<CacheWrite>)
    ensures r.Failure? <==> CrateFails(crate, extensible)
    ensures r.Failure? ==> CrateError(crate, extensible, r.error)
    ensures r.Success? ==> CrateTable(crate, extensible, r.value)
    ensures write.Some? <==> r.Success? && crate.cacheFile.None?
    ensures write.Some? ==> write.value.crate == crate.name && CacheLinesOf(write.value.lines, r.value)
  {
    var cached := MaybeLoadComponentInfoCache(crate.cacheFile);
    if cached.Failure? {
      return Failure(CacheUnreadable(crate.name, cached.error)), None;
    }
    if cached.value.Some? {
      return Success(cached.value.value), None;
    }
    var found := FindComponentInfo(crate.classes, extensible);
    ScanOutcome(crate, extensible, found);
    if found.Failure? {
      return Failure(ComponentsUnresolved(crate.name, found.error)), None;
    }
    var lines, entries := WriteComponentInfoCache(found.value);
    assert lines == FormatLines(entries) && ListsTable(entries, found.value);
    return Success(found.value), Some(CacheWrite(crate.name, lines));
  }

  /**
   * `writes` are the cache files written for the crates before `upTo` that
   * had none, in order: `writers[k]` is the crate `writes[k]` was written for.
   */
  ghost predicate WritesFor(crates: seq<Crate>, crateInfos: seq<ComponentTable>, upTo: int,
                            writes: seq<CacheWrite>, writers: seq<nat>)
    requires 0 <= upTo <= |crates| && |crateInfos| >= upTo
  {
    && |writers| == |writes|
    && (forall k :: 0 <= k < |writes| ==>
          && writers[k] < upTo && crates[writers[k]].cacheFile.None?
          && writes[k].crate == crates[writers[k]].name
          && CacheLinesOf(writes[k].lines, crateInfos[writers[k]]))
    && (forall j :: 0 <= j < upTo && crates[j].cacheFile.None? ==> j in writers)
    && (forall k, l :: 0 <= k < l < |writers| ==> writers[k] < writers[l])
  }

  /**
   * The constructor's progress: the crates before `|crateInfos|` loaded
   * without failing, with tables `crateInfos`, and `writes` are their cache writes.
   */
  ghost predicate LoadedUpTo(crates: seq<Crate>, extensible: map<ClassName, ClassName>, crateInfos: seq<ComponentTable>,
                             writes: seq<CacheWrite>, writers: seq<nat>)
  {
    && |crateInfos| <= |crates|
    && (forall j :: 0 <= j < |crateInfos| ==> CrateTable(crates[j], extensible, crateInfos[j]) && !CrateFails(crates[j], extensible))
    && WritesFor(crates, crateInfos, |crateInfos|, writes, writers)
  }

  /** One more crate's cache write, when it had no cache. */
  lemma WritesStep(crates: seq<Crate>, crateInfos: seq<ComponentTable>, writes: seq<CacheWrite>, writers: seq<nat>,
                   t: ComponentTable, write: Option<CacheWrite>)
    requires |crateInfos| < |crates| && WritesFor(crates, crateInfos, |crateInfos|, writes, writers)
    requires write.Some? <==> crates[|crateInfos|].cacheFile.None?
    requires write.Some? ==> write.value.crate == crates[|crateInfos|].name && CacheLinesOf(write.value.lines, t)
    ensures write.Some? ==> WritesFor(crates, crateInfos + [t], |crateInfos| + 1, writes + [write.value], writers + [|crateInfos|])
    ensures write.None? ==> WritesFor(crates, crateInfos + [t], |crateInfos| + 1, writes, writers)
  {
    var infos := crateInfos + [t];
    assert forall j :: 0 <= j < |crateInfos| ==> infos[j] == crateInfos[j];
  }

  /** One more crate's table, loaded without failing. */
  lemma TablesStep(crates: seq<Crate>, extensible: map<ClassName, ClassName>, crateInfos: seq<ComponentTable>, t: ComponentTable)
    requires |crateInfos| < |crates|
    requires forall j :: 0 <= j < |crateInfos| ==> CrateTable(crates[j], extensible, crateInfos[j]) && !CrateFails(crates[j], extensible)
    requires CrateTable(crates[|crateInfos|], extensible, t) && !CrateFails(crates[|crateInfos|], extensible)
    ensures var infos := crateInfos + [t];
            forall j :: 0 <= j < |infos| ==> CrateTable(crates[j], extensible, infos[j]) && !CrateFails(crates[j], extensible)
  {
    var infos := crateInfos + [t];
    forall j | 0 <= j < |infos| ensures CrateTable(crates[j], extensible, infos[j]) && !CrateFails(crates[j], extensible) {
      if j < |crateInfos| {
        assert infos[j] == crateInfos[j];
      }
    }
  }

  /** One more crate's table and, when it had no cache, its cache write. */
  lemma CrateStep(crates: seq<Crate>, extensible: map<ClassName, ClassName>, crateInfos: seq<ComponentTable>,
                  writes: seq<CacheWrite>, writers: seq<nat>, t: ComponentTable, write: Option<CacheWrite>)
    requires |crateInfos| < |crates| && LoadedUpTo(crates, extensible, crateInfos, writes, writers)
    requires CrateTable(crates[|crateInfos|], extensible, t) && !CrateFails(crates[|crateInfos|], extensible)
    requires write.Some? <==> crates[|crateInfos|].cacheFile.None?
    requires write.Some? ==> write.value.crate == crates[|crateInfos|].name && CacheLinesOf(write.value.lines, t)
    ensures write.Some? ==> LoadedUpTo(crates, extensible, crateInfos + [t], writes + [write.value], writers + [|crateInfos|])
    ensures write.None? ==> LoadedUpTo(crates, extensible, crateInfos + [t], writes, writers)
  {
    TablesStep(crates, extensible, crateInfos, t);
    WritesStep(crates, crateInfos, writes, writers, t, write);
  }

  /** Proof step: crate `i`, the first to fail, witnesses the failure clauses of `NewComponentService`. */
  lemma FirstFailure(crates: seq<Crate>, extensible: map<ClassName, ClassName>, i: int, err: ServiceError)
    requires 0 <= i < |crates| && CrateFails(crates[i], extensible) && CrateError(crates[i], extensible, err)
    requires forall j :: 0 <= j < i ==> !CrateFails(crates[j], extensible)
    ensures exists k :: 0 <= k < |crates| && CrateFails(crates[k], extensible)
    ensures exists k :: && 0 <= k < |crates| && CrateError(crates[k], extensible, err)
                        && forall j :: 0 <= j < k ==> !CrateFails(crates[j], extensible)
  {
  }

  /**
   * Builds the registry: finds the host's extension points, then for each
   * crate in order loads or discovers its table, and merges it into the
   * global one; `writes` are the cache files written, in order.
   */
  method NewComponentService(classpath: seq<ClassRecord>, crates: seq<Crate>)
    returns (r: Result<ComponentService, ServiceError>, writes: seq<CacheWrite>,
             ghost extensible: map<ClassName, ClassName>, ghost crateInfos: seq<ComponentTable>, ghost writers: seq<nat>)
    ensures forall c :: c in extensible <==>
              Extensible.DescendsFrom(IndexClasses(classpath), AnnotatedClasses(classpath, ExtensibleComponentDescriptor), c)
    ensures Extensible.MapInherits(IndexClasses(classpath), SelfRoots(AnnotatedClasses(classpath, ExtensibleComponentDescriptor)), extensible)
    ensures Extensible.ParentRooted(IndexClasses(classpath), SelfRoots(AnnotatedClasses(classpath, ExtensibleComponentDescriptor)), extensible, extensible.Keys)
    ensures extensible.Values <= AnnotatedClasses(classpath, ExtensibleComponentDescriptor)
    ensures LoadedUpTo(crates, extensible, crateInfos, writes, writers)
    ensures r.Failure? <==> exists i :: 0 <= i < |crates| && CrateFails(crates[i], extensible)
    ensures r.Failure? ==> && |crateInfos| < |crates| && CrateFails(crates[|crateInfos|], extensible)
                           && CrateError(crates[|crateInfos|], extensible, r.error)
    ensures r.Failure? ==> exists i :: && 0 <= i < |crates| && CrateError(crates[i], extensible, r.error)
                                       && forall j :: 0 <= j < i ==> !CrateFails(crates[j], extensible)
    ensures r.Success? ==> && |crateInfos| == |crates|
                           && (forall i :: 0 <= i < |crates| ==> CrateTable(crates[i], extensible, crateInfos[i]))
                           && r.value.componentInfo == MergeAll(crateInfos)
                           && WritesFor(crates, crateInfos, |crates|, writes, writers)
  {
    var hostExtensible := FindExtensible(classpath);
    extensible := hostExtensible;
    var componentInfo: ComponentTable := map[];
    writes, crateInfos, writers := [], [], [];
    for i := 0 to |crates|
      invariant |crateInfos| == i
      invariant LoadedUpTo(crates, extensible, crateInfos, writes, writers)
      invariant componentInfo == MergeAll(crateInfos)
    {
      var crateComponentInfo, write := LoadCrate(crates[i], hostExtensible);
      if crateComponentInfo.Failure? {
        FirstFailure(crates, extensible, i, crateComponentInfo.error);
        return Failure(crateComponentInfo.error), writes, extensible, crateInfos, writers;
      }
      CrateStep(crates, extensible, crateInfos, writes, writers, crateComponentInfo.value, write);
      crateInfos := crateInfos + [crateComponentInfo.value];
      if write.Some? {
        writes, writers := writes + [write.value], writers + [i];
      }
      componentInfo := MergeCrate(componentInfo, crateComponentInfo.value);
      assert crateInfos[..i] == crateInfos[..|crateInfos| - 1];
    }
    r := Success(ComponentService(componentInfo));
  }
}

=== FILE: scanner.dfy ===
/**
 * Discovery by scanning: the class files of the host class path or of one
 * crate are shown to an annotated-hierarchy visitor in order; the reported
 * annotations name the host's extension points or a crate's named
 * components, and the hierarchy index lets each named component be filed
 * under the extension point it descends from.
 */
module Scanner {
  import opened ComponentTypes
  import opened Hierarchy
  import opened Extensible

  /** One report of the target annotation: the class carrying it and the annotation's string arguments. */
  datatype Hit = Hit(classname: ClassName, values: seq<string>)

  /** Why a crate's components cannot be filed. */
  datatype ScanError = NotExtensible(name: string, classname: ClassName)

  /** The target annotations among `annotations` of class `name`, in declaration order. */
  function HitsOf(name: ClassName, annotations: seq<Annotation>, descriptor: string): seq<Hit>
  {
    if annotations == [] then []
    else
      var a := annotations[|annotations| - 1];
      HitsOf(name, annotations[..|annotations| - 1], descriptor) +
        (if a.descriptor == descriptor then [Hit(name, a.values)] else [])
  }

  /** The target annotations reported while visiting `classes` in order. */
  function AnnotationHits(classes: seq<ClassRecord>, descriptor: string): seq<Hit>
  {
    if classes == [] then []
    else
      var c := classes[|classes| - 1];
      AnnotationHits(classes[..|classes| - 1], descriptor) + HitsOf(c.name, c.annotations, descriptor)
  }

  /** A class's hits are exactly its annotations of the target type. */
  lemma {:induction false} HitsOfMembers(name: ClassName, annotations: seq<Annotation>, descriptor: string, hit: Hit)
    ensures hit in HitsOf(name, annotations, descriptor) <==>
            hit.classname == name && Annotation(descriptor, hit.values) in annotations
  {
    if annotations != [] {
      var n := |annotations| - 1;
      HitsOfMembers(name, annotations[..n], descriptor, hit);
      assert annotations == annotations[..n] + [annotations[n]];
    }
  }

  /** A hit is reported exactly when some visited class carries an annotation of the target type with those arguments. */
  lemma {:induction false} AnnotationHitsMembers(classes: seq<ClassRecord>, descriptor: string, hit: Hit)
    ensures hit in AnnotationHits(classes, descriptor) <==>
            exists k :: 0 <= k < |classes| && classes[k].name == hit.classname && Annotation(descriptor, hit.values) in classes[k].annotations
  {
    if classes != [] {
      var n := |classes| - 1;
      var prefix := classes[..n];
      AnnotationHitsMembers(prefix, descriptor, hit);
      HitsOfMembers(classes[n].name, classes[n].annotations, descriptor, hit);
      if exists k :: 0 <= k < |classes| && classes[k].name == hit.classname && Annotation(descriptor, hit.values) in classes[k].annotations {
        var k :| 0 <= k < |classes| && classes[k].name == hit.classname && Annotation(descriptor, hit.values) in classes[k].annotations;
        if k < n {
          assert prefix[k] == classes[k];
        }
      }
      if exists k :: 0 <= k < |prefix| && prefix[k].name == hit.classname && Annotation(descriptor, hit.values) in prefix[k].annotations {
        var k :| 0 <= k < |prefix| && prefix[k].name == hit.classname && Annotation(descriptor, hit.values) in prefix[k].annotations;
        assert classes[k] == prefix[k];
      }
    }
  }

  /** Shows the annotations of the current class to `visitor`, in order, and collects what it reports. */
  method ReportAnnotations(visitor: AnnotatedHierarchyVisitor, annotations: seq<Annotation>) returns (hits: seq<Hit>)
    ensures hits == HitsOf(visitor.currentName, annotations, visitor.targetAnnotationDescriptor)
  {
    hits := [];
    for j := 0 to |annotations|
      invariant hits == HitsOf(visitor.currentName, annotations[..j], visitor.targetAnnotationDescriptor)
    {
      var a := annotations[j];
      var hit := visitor.VisitAnnotation(a.descriptor);
      assert annotations[..j + 1][..j] == annotations[..j];
      if hit.Some? {
        hits := hits + [Hit(hit.value, a.values)];
      }
    }
    assert annotations[..|annotations|] == annotations;
  }

  /**
   * Shows every class to a fresh visitor looking for `descriptor`: its header
   * first, then its annotations in order. Returns the reported hits, in order,
   * and the hierarchy the visitor accumulated.
   */
  method ScanClasses(classes: seq<ClassRecord>, descriptor: string) returns (hits: seq<Hit>, classToSubclasses: ClassHierarchy)
    ensures hits == AnnotationHits(classes, descriptor)
    ensures classToSubclasses == IndexClasses(classes)
  {
    var visitor := new AnnotatedHierarchyVisitor(descriptor);
    hits := [];
    for k := 0 to |classes|
      invariant visitor.targetAnnotationDescriptor == descriptor
      invariant visitor.classToSubclasses == IndexClasses(classes[..k])
      invariant hits == AnnotationHits(classes[..k], descriptor)
    {
      var c := classes[k];
      assert classes[..k + 1][..k] == classes[..k];
      visitor.Visit(c.name, c.superName, c.interfaces);
      var classHits := ReportAnnotations(visitor, c.annotations);
      hits := hits + classHits;
    }
    assert classes[..|classes|] == classes;
    classToSubclasses := visitor.GetClassHierarchy();
  }

  /** The classes of `classes` that carry an annotation of type `descriptor`. */
  function AnnotatedClasses(classes: seq<ClassRecord>, descriptor: string): set<ClassName>
  {
    set k, a | 0 <= k < |classes| && a in classes[k].annotations && a.descriptor == descriptor :: classes[k].name
  }

  /** The host's extension points, each its own root. */
  function SelfRoots(s: set<ClassName>): (roots: map<ClassName, ClassName>)
    ensures roots.Keys == s
    ensures forall c :: c in roots ==> roots[c] == c
  {
    map c | c in s :: c
  }

  /** Each reported class becomes an extension point, standing for itself. */
  method CollectExtensible(hits: seq<Hit>) returns (extensibleClasses: map<ClassName, ClassName>)
    ensures extensibleClasses.Keys == set i | 0 <= i < |hits| :: hits[i].classname
    ensures forall c :: c in extensibleClasses ==> extensibleClasses[c] == c
  {
    extensibleClasses := map[];
    for i := 0 to |hits|
      invariant extensibleClasses.Keys == set j | 0 <= j < i :: hits[j].classname
      invariant forall c :: c in extensibleClasses ==> extensibleClasses[c] == c
    {
      extensibleClasses := extensibleClasses[hits[i].classname := hits[i].classname];
    }
  }

  /** The reported classes are exactly the annotated ones. */
  lemma HitClassesAreAnnotated(classes: seq<ClassRecord>, descriptor: string)
    ensures var hits := AnnotationHits(classes, descriptor);
            (set i | 0 <= i < |hits| :: hits[i].classname) == AnnotatedClasses(classes, descriptor)
  {
    var hits := AnnotationHits(classes, descriptor);
    forall i | 0 <= i < |hits| ensures hits[i].classname in AnnotatedClasses(classes, descriptor) {
      AnnotationHitsMembers(classes, descriptor, hits[i]);
    }
    forall c | c in AnnotatedClasses(classes, descriptor) ensures exists i :: 0 <= i < |hits| && hits[i].classname == c {
      var k, a :| 0 <= k < |classes| && a in classes[k].annotations && a.descriptor == descriptor && classes[k].name == c;
      AnnotationHitsMembers(classes, descriptor, Hit(c, a.values));
      var i :| 0 <= i < |hits| && hits[i] == Hit(c, a.values);
    }
  }

  /**
   * Finds the host's extension points: every annotated class of the class
   * path, closed under the hierarchy, each class mapped to the annotated
   * class it descends from.
   */
  method FindExtensible(classpath: seq<ClassRecord>) returns (extensible: map<ClassName, ClassName>)
    ensures var h := IndexClasses(classpath);
            var roots := SelfRoots(AnnotatedClasses(classpath, ExtensibleComponentDescriptor));
            && (forall c {:trigger DescendsFrom(h, roots.Keys, c)} :: c in extensible <==> DescendsFrom(h, roots.Keys, c))
            && MapInherits(h, roots, extensible)
            && ParentRooted(h, roots, extensible, extensible.Keys)
            && extensible.Values <= roots.Keys
  {
    var hits, classToSubclasses := ScanClasses(classpath, ExtensibleComponentDescriptor);
    var extensibleClasses := CollectExtensible(hits);
    HitClassesAreAnnotated(classpath, ExtensibleComponentDescriptor);
    assert extensibleClasses == SelfRoots(AnnotatedClasses(classpath, ExtensibleComponentDescriptor));
    ghost var expanded;
    extensible, expanded := AddExtensibleDescendants(extensibleClasses, classToSubclasses);
  }

  /** The name -> class map the named-component callback builds from `hits`: a later report of a name replaces an earlier one. */
  function CollectNamed(hits: seq<Hit>): map<string, ClassName>
  {
    if hits == [] then map[]
    else
      var hit := hits[|hits| - 1];
      CollectNamed(hits[..|hits| - 1]) + map v | v in hit.values :: hit.classname
  }

  /** `hits[k]` is the last hit giving `name`. */
  ghost predicate LastNamedAt(hits: seq<Hit>, k: int, name: string)
  {
    0 <= k < |hits| && name in hits[k].values && forall j :: k < j < |hits| ==> name !in hits[j].values
  }

  /** A name is collected exactly when some hit gives it. */
  lemma {:induction false} CollectNamedKeys(hits: seq<Hit>, name: string)
    ensures name in CollectNamed(hits) <==> exists k :: 0 <= k < |hits| && name in hits[k].values
  {
    if hits != [] {
      var n := |hits| - 1;
      CollectNamedKeys(hits[..n], name);
      if exists k :: 0 <= k < n && name in hits[..n][k].values {
        var k :| 0 <= k < n && name in hits[..n][k].values;
        assert name in hits[k].values;
      }
      if exists k :: 0 <= k < |hits| && name in hits[k].values {
        var k :| 0 <= k < |hits| && name in hits[k].values;
        if k < n {
          assert name in hits[..n][k].values;
        }
      }
    }
  }

  /** Two classes reported with the same name: the last one seen is the one kept. */
  lemma {:induction false} CollectNamedLastWins(hits: seq<Hit>, k: int, name: string)
    requires LastNamedAt(hits, k, name)
    ensures name in CollectNamed(hits) && CollectNamed(hits)[name] == hits[k].classname
  {
    var n := |hits| - 1;
    if k < n {
      assert name !in hits[n].values;
      CollectNamedLastWins(hits[..n], k, name);
    }
  }

  /** Puts every name of one report, with the reported class, into `m`. */
  method PutNames(m: map<string, ClassName>, values: seq<string>, classname: ClassName) returns (m': map<string, ClassName>)
    ensures m'.Keys == m.Keys + set v | v in values
    ensures forall v :: v in m' ==> m'[v] == if v in values then classname else m[v]
  {
    m' := m;
    for j := 0 to |values|
      invariant m'.Keys == m.Keys + set v | v in values[..j]
      invariant forall v :: v in m' ==> m'[v] == if v in values[..j] then classname else m[v]
    {
      assert forall v :: v in values[..j + 1] <==> v in values[..j] || v == values[j];
      m' := m'[values[j] := classname];
    }
    assert values[..|values|] == values;
  }

  /** Puts every reported name, in order, into the name -> class map. */
  method CollectNamedComponents(hits: seq<Hit>) returns (namedComponents: map<string, ClassName>)
    ensures namedComponents == CollectNamed(hits)
  {
    namedComponents := map[];
    for i := 0 to |hits|
      invariant namedComponents == CollectNamed(hits[..i])
    {
      assert hits[..i + 1][..i] == hits[..i];
      namedComponents := PutNames(namedComponents, hits[i].values, hits[i].classname);
    }
    assert hits[..|hits|] == hits;
  }

  /**
   * `t` files exactly the names of `done` under the root their class has in
   * `extensible`, each with its class, and has no extension point without
   * implementations.
   */
  ghost predicate Filed(named: map<string, ClassName>, done: set<string>, extensible: map<ClassName, ClassName>, t: ComponentTable)
  {
    && (forall ep, n :: n in Implementations(t, ep) <==>
          n in done && n in named && named[n] in extensible && extensible[named[n]] == ep)
    && (forall ep, n :: ep in t && n in t[ep] ==> n in named && t[ep][n] == named[n])
    && NoEmptyExtensionPoint(t)
  }

  /** Filing one more name keeps the table filed; the name was not filed before. */
  lemma FileOne(named: map<string, ClassName>, done: set<string>, extensible: map<ClassName, ClassName>, t: ComponentTable, name: string)
    requires Filed(named, done, extensible, t)
    requires name in named && name !in done && named[name] in extensible
    ensures var ep := extensible[named[name]];
            && name !in Implementations(t, ep)
            && Filed(named, done + {name}, extensible, t[ep := Implementations(t, ep)[name := named[name]]])
  {
    var ep := extensible[named[name]];
    var t' := t[ep := Implementations(t, ep)[name := named[name]]];
    forall e, n ensures n in Implementations(t', e) <==>
        n in done + {name} && n in named && named[n] in extensible && extensible[named[n]] == e
    {
      if e != ep {
        assert Implementations(t', e) == Implementations(t, e);
      }
    }
  }

  /**
   * Files every named component under the extension point its class
   * descends from. Fails, naming the first offender met, when some named
   * class is not extensible.
   */
  method ResolveComponents(namedComponents: map<string, ClassName>, localExtensible: map<ClassName, ClassName>)
    returns (r: Result<ComponentTable, ScanError>)
    ensures r.Failure? <==> exists n :: n in namedComponents && namedComponents[n] !in localExtensible
    ensures r.Failure? ==> && r.error.name in namedComponents
                           && r.error.classname == namedComponents[r.error.name]
                           && r.error.classname !in localExtensible
    ensures r.Success? ==> Filed(namedComponents, namedComponents.Keys, localExtensible, r.value)
  {
    var componentInfo: ComponentTable := map[];
    var rest := namedComponents.Keys;
    while rest != {}
      invariant rest <= namedComponents.Keys
      invariant forall n :: n in namedComponents && n !in rest ==> namedComponents[n] in localExtensible
      invariant Filed(namedComponents, namedComponents.Keys - rest, localExtensible, componentInfo)
    {
      var name :| name in rest;
      var classname := namedComponents[name];
      if classname !in localExtensible {
        return Failure(NotExtensible(name, classname));
      }
      var extensibleClassname := localExtensible[classname];
      var named := Implementations(componentInfo, extensibleClassname);
      FileOne(namedComponents, namedComponents.Keys - rest, localExtensible, componentInfo, name);
      // the put never replaces a component: names are keys of `namedComponents`
      assert name !in named;
      componentInfo := componentInfo[extensibleClassname := named[name := classname]];
      assert namedComponents.Keys - (rest - {name}) == namedComponents.Keys - rest + {name};
      rest := rest - {name};
    }
    return Success(componentInfo);
  }

  /** A table filed by the closure's roots files every component under an extension point its class inherits. */
  lemma FiledUnderInheritedRoots(h: ClassHierarchy, extensible: map<ClassName, ClassName>, localExtensible: map<ClassName, ClassName>,
                                 named: map<string, ClassName>, t: ComponentTable)
    requires MapInherits(h, extensible, localExtensible)
    requires forall n :: n in named ==> named[n] in localExtensible
    requires Filed(named, named.Keys, localExtensible, t)
    ensures forall n :: n in named <==> exists ep :: n in Implementations(t, ep)
    ensures forall ep, n :: n in Implementations(t, ep) ==> t[ep][n] == named[n] && InheritsFrom(h, extensible, named[n], ep)
    ensures EachNameOnce(t)
  {
    forall n | n in named ensures exists ep :: n in Implementations(t, ep) {
      assert n in Implementations(t, localExtensible[named[n]]);
    }
    forall ep, n | n in Implementations(t, ep) ensures InheritsFrom(h, extensible, named[n], ep) {
      assert InheritsFrom(h, extensible, named[n], localExtensible[named[n]]);
    }
    forall ep1, ep2, n | n in Implementations(t, ep1) && n in Implementations(t, ep2) ensures ep1 == ep2 {
      assert ep1 == localExtensible[named[n]] && ep2 == localExtensible[named[n]];
    }
  }

  /**
   * The outcome of discovering the components of `classes`: failure exactly
   * when some named class descends from no extension point of `extensible`,
   * naming such a component; otherwise every named component is filed, once,
   * with its class, under an extension point its class inherits, and nothing
   * else is filed.
   */
  ghost predicate Discovered(classes: seq<ClassRecord>, extensible: map<ClassName, ClassName>, r: Result<ComponentTable, ScanError>)
  {
    var named := CollectNamed(AnnotationHits(classes, NamedComponentDescriptor));
    var h := IndexClasses(classes);
    && (r.Failure? <==> exists n :: n in named && !DescendsFrom(h, extensible.Keys, named[n]))
    && (r.Failure? ==> r.error.name in named && r.error.classname == named[r.error.name]
                       && !DescendsFrom(h, extensible.Keys, r.error.classname))
    && (r.Success? ==> && (forall n :: n in named <==> exists ep :: n in Implementations(r.value, ep))
                       && (forall ep, n :: n in Implementations(r.value, ep) ==>
                             r.value[ep][n] == named[n] && InheritsFrom(h, extensible, named[n], ep))
                       && EachNameOnce(r.value)
                       && NoEmptyExtensionPoint(r.value))
  }

  /**
   * Discovers one crate's components: scans its classes for named
   * components, extends a copy of the host's extension points with the
   * crate's own descendants of them, and files every named component under
   * its extension point.
   */
  method FindComponentInfo(classes: seq<ClassRecord>, extensible: map<ClassName, ClassName>)
    returns (r: Result<ComponentTable, ScanError>)
    ensures Discovered(classes, extensible, r)
  {
    var hits, classToSubclasses := ScanClasses(classes, NamedComponentDescriptor);
    var namedComponents := CollectNamedComponents(hits);
    var localExtensible; ghost var expanded;
    localExtensible, expanded := AddExtensibleDescendants(extensible, classToSubclasses);
    r := ResolveComponents(namedComponents, localExtensible);
    if r.Success? {
      FiledUnderInheritedRoots(classToSubclasses, extensible, localExtensible, namedComponents, r.value);
    }
  }
}

=== FILE: types.dfy ===
/**
 * Shared vocabulary of the component-discovery engine: class names are
 * plain strings (internal JVM names as the bytecode reader reports them),
 * a class file is reduced to the facts the hierarchy visitor sees, and the
 * discovery result is a two-level table extension point -> name -> class.
 */
module ComponentTypes {

  datatype Option<+T> = None | Some(value: T)

  datatype Result<+T, +E> = Success(value: T) | Failure(error: E)

  type ClassName = string

  /** Parent class or interface -> classes that directly extend or implement it. */
  type ClassHierarchy = map<ClassName, set<ClassName>>

  /** Extension point -> component name -> implementing class. */
  type ComponentTable = map<ClassName, map<string, ClassName>>

  /** A class-level annotation: its type descriptor and its literal string arguments. */
  datatype Annotation = Annotation(descriptor: string, values: seq<string>)

  /** What the bytecode reader reports of one class file (code is skipped). */
  datatype ClassRecord = ClassRecord(
    name: ClassName,
    superName: ClassName,
    interfaces: seq<ClassName>,
    annotations: seq<Annotation>)

  /** Type descriptor of the annotation marking a host extension point. */
  const ExtensibleComponentDescriptor: string := "Lorg/elasticsearch/component/ExtensibleComponent;"

  /** Type descriptor of the annotation giving a plugin class its component name. */
  const NamedComponentDescriptor: string := "Lorg/elasticsearch/component/NamedComponent;"

  /** The children recorded for a parent; an unknown parent has none. */
  function Subclasses(h: ClassHierarchy, parent: ClassName): set<ClassName>
  {
    if parent in h then h[parent] else {}
  }

  /** The implementations registered for an extension point; none when it is unknown. */
  function Implementations(t: ComponentTable, extensionPoint: ClassName): map<string, ClassName>
  {
    if extensionPoint in t then t[extensionPoint] else map[]
  }

  /** Every extension point in the table has at least one implementation. */
  ghost predicate NoEmptyExtensionPoint(t: ComponentTable)
  {
    forall ep :: ep in t ==> t[ep] != map[]
  }

  /** No name is filed under two extension points. */
  ghost predicate EachNameOnce(t: ComponentTable)
  {
    forall ep1, ep2, n :: n in Implementations(t, ep1) && n in Implementations(t, ep2) ==> ep1 == ep2
  }
}
